=== FILE: README.md ===
# pyFF RedisStore, modelled in Dafny

This project models the metadata store of pyFF (`RedisStore` in
`src/pyff/store.py`). The store keeps SAML metadata in a Redis database,
using these keys:

- `<id>#metadata`: the serialized document.
- `<id>`: a hash with the root element's attributes plus `expires`.
- `<group>#members`: a sorted set of entity ids, scored by expiry. Groups are collections, `entities`, and `{attr}value` index groups.
- `#collections` and `#attributes`: sets of names.
- `<attr>#values`: the values of an attribute.
- `{hash}<digest>#alias`: maps a digest of an entity id back to that id.

`update` writes an `EntityDescriptor` or an `EntitiesDescriptor` and its
entities. `lookup` resolves a key through composite `a+b` intersections,
aliases, documents and groups. `periodic` prunes expired entries.

The Redis database is an immutable value, `KeyStore.State`. It holds one
map per value kind (strings, hashes, sets, sorted sets) and one expiry map,
and every Redis command the store uses is a pure function over it.
Commands a pipeline batches run in order, one after another. The
current time `now` is a parameter of every operation that reads the clock.
The `hex_digest` helper is a pair of configuration functions
(`MetadataStore.Config`). Parsed XML is abstracted to the attributes and
the structure the store reads (`Documents`).

Modules:

- `Wrappers`: `Option` and `Result`.
- `Text`: byte-wise string order, `strip` on element texts (the `str` or `unicode` rules, as lxml returns the text under Python 2), and `str.split` with its inverse `Join`.
- `KeyStore`: the Redis value model and the commands the store issues.
- `Documents`: metadata elements, `is_idp`, `is_sp` and `entity_attribute_dict`.
- `MetadataStore`: the `RedisStore` operations.
- `StoreProperties`: properties that relate several operations.

## Model

| member | source | states |
|---|---|---|
| Documents.Roles | src/pyff/store.py:30-35 | the role list holds `idp` exactly when the entity has an IDPSSODescriptor (`is_idp`), and `sp` exactly when it has an SPSSODescriptor (`is_sp`); `idp` comes first; it holds nothing else, and each role at most once |
| Documents.StripAll | src/pyff/store.py:27 | when every AttributeValue has a text, each collected value is the corresponding text with surrounding whitespace removed |
| Documents.BlocksDict | src/pyff/store.py:22-28 | the dictionary the blocks build has distinct keys (what each key maps to is stated by `DictFollowsLastBlock` and `DictMissesUnnamed`) |
| Documents.Put | src/pyff/store.py:28 | assigning a dictionary key makes it map to the new values and leaves every other key as it was |
| Documents.EntityAttributeDict | src/pyff/store.py:19-37 | the dictionary is built exactly when the first Attribute of every block has texts only (otherwise `strip` of None raises); it has distinct keys; the role attribute maps to the entity's roles; every other name maps to what the EntityAttributes blocks give it |
| Documents.DictFollowsLastBlock | src/pyff/store.py:22-28 | a name is given the stripped values of the last EntityAttributes block whose first Attribute carries it; later blocks overwrite earlier ones |
| Documents.DictMissesUnnamed | src/pyff/store.py:22-28 | a name that no block's first Attribute carries is absent from the dictionary |
| Text.Strip | src/pyff/store.py:27 | the result is the input minus a whitespace prefix and a whitespace suffix, and it neither starts nor ends with whitespace; whitespace is the six ASCII characters for `str`, and the Unicode whitespace characters as well for `unicode` |
| Text.TextStripExamples | src/pyff/store.py:27 | a non-ASCII text loses a leading no-break space, while an ASCII text keeps a leading U+001C |
| Text.Split | src/pyff/store.py:171 | the parts contain no separator and joined with it give the key back; there are at least two parts exactly when the separator occurs |
| Text.SplitJoin | src/pyff/store.py:171 | splitting the join of separator-free parts gives back the same parts |
| KeyStore.Set | src/pyff/store.py:89 | SET stores the string, clears any expiry of that key, and changes no other key |
| KeyStore.ExpireAt | src/pyff/store.py:91 | EXPIREAT gives an existing key the expiry instant and ignores a missing key |
| KeyStore.SAdd | src/pyff/store.py:103 | SADD adds exactly the member to the set and changes no other key |
| KeyStore.SRemAll | src/pyff/store.py:79 | SREM takes the members out of the set, deletes the set once empty, and changes no other key's value or expiry |
| KeyStore.ZRemRangeByScore | src/pyff/store.py:74 | ZREMRANGEBYSCORE -inf..hi keeps exactly the members scored above hi, with their scores, and changes no other key's value or expiry |
| KeyStore.ZRemRangeByScoreAgain | src/pyff/store.py:74-81 | removing the same score range from an already pruned sorted set changes nothing |
| KeyStore.Ordered | src/pyff/store.py:109 | the listing is a permutation of the given members, in ascending (score, member) order |
| KeyStore.ZRangeByScore | src/pyff/store.py:163 | ZRANGEBYSCORE lo..+inf lists exactly the members scored at least lo, in ascending (score, member) order |
| KeyStore.BeforeIsStrictTotalOrder | src/pyff/store.py:109 | the (score, member) order of a sorted set is irreflexive, asymmetric, transitive and total on its members |
| KeyStore.Inter | src/pyff/store.py:171 | ZINTERSTORE with MIN aggregation keeps exactly the members common to all sources, at a score no greater than any source's |
| KeyStore.InterScoreIsASourceScore | src/pyff/store.py:171 | the aggregated score of a common member is the score it has in one of the sources |
| KeyStore.HSetAll | src/pyff/store.py:94 | HMSET writes every given field, keeps the fields already there and not given, adds no other field, and changes no other key |
| KeyStore.ZAdd | src/pyff/store.py:101 | ZADD scores the member as given, keeps every other member with its score and adds no other, and changes no other key |
| KeyStore.ZInterStore | src/pyff/store.py:171 | the destination holds the intersection, or is deleted when that is empty; no other sorted set or expiry changes |
| MetadataStore.Expiration | src/pyff/store.py:50-66 | the default TTL applies unless validity is respected; `cacheDuration` takes precedence over `validUntil`; with neither attribute on the element the default TTL applies |
| MetadataStore.StoreDocument | src/pyff/store.py:89-91 | the document is stored under `<tid>#metadata` with the given expiry or none, and no other string changes |
| MetadataStore.StoreInfo | src/pyff/store.py:92-96 | the info hash gains the root's attributes; `expires` is the given expiry unless an attribute overrides it; fields already there stay; the hash expires at the given instant |
| MetadataStore.UpdateEntity | src/pyff/store.py:86-96 | the document and the info hash of `tid` are written with their expiries; no other document, hash, set or sorted set changes |
| MetadataStore.Membership | src/pyff/store.py:98-103 | the member is scored at ts in the group, every other member of the group keeps its score, the group is registered in `#collections`, and no other sorted set or set changes |
| MetadataStore.IndexValue | src/pyff/store.py:131-134 | the entity joins the `{attr}value` group, that group is registered, and the value is scored in `<attr>#values`; no other sorted set or set changes, and `#collections` gains only that group |
| MetadataStore.IndexValues | src/pyff/store.py:131-134 | every value of the list is indexed for the entity at ts; only the value groups and `<attr>#values` change among sorted sets, and `#collections` gains only those groups |
| MetadataStore.IndexAttribute | src/pyff/store.py:130-135 | every value of the attribute is indexed, and `#attributes` gains exactly the attribute name; no sorted set outside the attribute's index changes |
| MetadataStore.IndexAttributes | src/pyff/store.py:130-135 | only the sorted sets of the dictionary's index entries change, `#attributes` gains only the dictionary's names, and no set but `#collections` and `#attributes` changes |
| MetadataStore.AttributesIndexed | src/pyff/store.py:130-135 | after the loop, every (name, value) pair of the dictionary is indexed and every name is in `#attributes` |
| MetadataStore.RegisterAliases | src/pyff/store.py:137-141 | each of the sha1, sha256 and md5 alias keys names `tid`; no other string changes; with hex digests the aliases carry no expiry |
| MetadataStore.AliasKeysAreNotDigests | src/pyff/store.py:139-141 | with hex digests, an alias key is never one of the bare digest keys given an expiry |
| MetadataStore.EntityUpdate | src/pyff/store.py:125-143 | the entity branch stores the entity's document, leaves every other document as it was, loses nothing from any index, and changes no sorted set outside the dictionary's index entries and no set but `#collections` and `#attributes` |
| MetadataStore.EntityBranch | src/pyff/store.py:128-143 | the entity batch runs and counts one exactly when the attribute dictionary can be built; otherwise AttributeError is raised and the batch is discarded, leaving the store as it was |
| MetadataStore.CollectionBatch | src/pyff/store.py:146-155 | the collection's batch stores its document with the collection's expiry; `#collections` gains exactly its group and `entities` when it has entities; no sorted set but those two groups and no other set changes |
| MetadataStore.CollectionBatchInfo | src/pyff/store.py:92-96 | after the collection's batch its info hash holds the root's attributes and `expires` unless overridden, and expires at the collection's expiry; every other document and hash is as it was |
| MetadataStore.CollectionBranch | src/pyff/store.py:144-155 | the collection branch counts its entities exactly when every entity's dictionary can be built; otherwise it raises AttributeError with the children written so far and the collection's batch discarded |
| MetadataStore.Update | src/pyff/store.py:120-159 | any other root raises ValueError with the store unchanged; an entity counts one, a collection its entities, exactly when their dictionaries can be built, and otherwise AttributeError is raised |
| MetadataStore.RegisterChildren | src/pyff/store.py:152-154 | the collection's membership writes change no sorted set but the collection's group and `entities`, add exactly those two names to `#collections` when there is a child, change no other set, and leave documents, hashes and expiries alone |
| MetadataStore.UpdateChildren | src/pyff/store.py:150-151 | the recursive child updates remove no member of any set or sorted set, and a kept member's score is unchanged or the collection's expiry |
| MetadataStore.ChildrenJoinGroups | src/pyff/store.py:150-154 | every entity of the collection is scored at the collection's expiry in the collection's group and in `entities`, and both names are registered |
| MetadataStore.ChildrenDocuments | src/pyff/store.py:150-151 | the recursive updates store each entity's document unless a later entity has the same id; documents of other ids stay |
| MetadataStore.UpdateAsWritten | src/pyff/store.py:147 | the two-argument `_expiration` call makes every collection update raise before any write; the other roots behave as in the one-argument reading |
| MetadataStore.CompositeSources | src/pyff/store.py:171 | one `<part>#members` source per `+`-separated part of the key, in order |
| MetadataStore.CompositeCache | src/pyff/store.py:168-172 | unless `<hk>#members` exists, `hk` holds the intersection of the parts' groups and expires 30 seconds from now; nothing else changes |
| MetadataStore.CompositeCacheUntouchesIndex | src/pyff/store.py:168-173 | with hex digests, the composite cache changes no string, hash or set, and no sorted set or expiry of a `#`-bearing key: only the digest key itself |
| MetadataStore.Lookup | src/pyff/store.py:167-179 | with hex digests, a lookup changes no string, hash or set, and no sorted set or expiry of a `#`-bearing key, however deep it recurses |
| MetadataStore.Members | src/pyff/store.py:161-165 | a missing group gives an empty list and changes nothing; a `<k>#members` of another kind raises WRONGTYPE; a success has one result per unexpired member; with hex digests no `#`-bearing key changes |
| MetadataStore.LookupEach | src/pyff/store.py:163 | a success has one result per id; with hex digests no `#`-bearing key changes |
| MetadataStore.Attribute | src/pyff/store.py:108-109 | exactly the values whose expiry is at least now, in (expiry, value) order |
| MetadataStore.Size | src/pyff/store.py:181-182 | the number of `entities` members whose expiry is at least now |
| MetadataStore.SetHash | src/pyff/store.py:114-115 | HMSET fails on an empty mapping; otherwise the hash gains the mapping, which overrides existing fields, and no other hash, string, set or sorted set changes |
| MetadataStore.Reset | src/pyff/store.py:68-69 | after FLUSHDB no key exists |
| MetadataStore.PruneCollections | src/pyff/store.py:75-79 | a name stays in `#collections` exactly when its group has a member; when any name is registered, `%s#members` loses its expired members; no other sorted set changes |
| MetadataStore.PruneAttributes | src/pyff/store.py:80-84 | a name stays in `#attributes` exactly when `<name>#members` has a member; when any name is registered, `%s#values` loses its expired members; no other sorted set changes |
| MetadataStore.Periodic | src/pyff/store.py:71-84 | maintenance changes no document and no hash, and no expiry but those of the three pruned sorted sets and the two registries |
| StoreProperties.EntityUpdateStoresDocument | src/pyff/store.py:89-96 | the entity branch stores the document and the info hash, both expiring at ts, and `expires` reads ts unless an attribute overrides it; the hash keeps its expiry through the index and alias writes unless `tid` is itself one of the alias keys, whose SET clears it |
| StoreProperties.EntityUpdateIndexes | src/pyff/store.py:130-135 | every (name, value) pair of the entity's attribute dictionary is indexed at ts, and every name is in `#attributes` |
| StoreProperties.EntityUpdateAliases | src/pyff/store.py:137-141 | every alias key names the entity id; with hex digests the aliases never expire |
| StoreProperties.EntityUpdateIndexesRoles | src/pyff/store.py:30-35 | an IDP joins the `idp` role group and an SP the `sp` role group, at ts |
| StoreProperties.EntityUpdateKeepsEntities | src/pyff/store.py:125-143 | the entity branch leaves the `entities` group as it was: no index entry of an entity lands there |
| StoreProperties.EntityUpdateAttributes | src/pyff/store.py:105-106 | after the entity branch, `attributes()` is what it was plus exactly the names of the entity's attribute dictionary |
| StoreProperties.EntityUpdateIndexesLastBlock | src/pyff/store.py:22-28 | a non-role attribute is indexed with the stripped values of the last block that names it |
| StoreProperties.UpdateOutcome | src/pyff/store.py:120-159 | `update` succeeds exactly for an entity or a collection whose dictionaries can be built; otherwise it raises ValueError for another root and AttributeError for an unreadable entity, and an entity or another root leaves the store unchanged |
| StoreProperties.UpdateEntityDocument | src/pyff/store.py:123-143 | an entity is stored under the given id or its entityID, expiring at the given time or four days from now; it counts one; no other document changes |
| StoreProperties.UpdateEntityKeepsSize | src/pyff/store.py:181-182 | `update` of an entity, accepted or not, leaves the `entities` group and so `size()` unchanged |
| StoreProperties.UpdateIndexesAttributes | src/pyff/store.py:123-135 | after `update` of an entity, each attribute value is indexed at the entity's expiry |
| StoreProperties.UpdateIndexesRoles | src/pyff/store.py:123-135 | after `update` of an entity, its role groups hold it at its expiry |
| StoreProperties.UpdateRejectsOtherRoots | src/pyff/store.py:156-157 | `update` raises ValueError exactly for a root that is neither an entity nor a collection, and that failure leaves the store unchanged |
| StoreProperties.CollectionIgnoresGivenExpiry | src/pyff/store.py:147 | for a collection, the expiry passed to `update` makes no difference |
| StoreProperties.UpdateCollectionGroups | src/pyff/store.py:144-155 | a collection is stored under the given id or its Name with the `_expiration` expiry; it counts its entities; each entity joins the collection's group and `entities` |
| StoreProperties.CollectionUpdateFailsAsWritten | src/pyff/store.py:147 | as written, every collection update fails with the store unchanged, while the one-argument reading succeeds unless an entity's dictionary cannot be built |
| StoreProperties.UpdateChildrenStops | src/pyff/store.py:150-151 | the loop over the children ends at the first entity whose dictionary cannot be built: only the entities before it are written |
| StoreProperties.UpdateCollectionStopsAtUnreadable | src/pyff/store.py:144-155 | a collection with an unreadable entity raises AttributeError, leaving the entities before it written and the collection's batch discarded |
| StoreProperties.UpdateCollectionEntities | src/pyff/store.py:150-151 | each entity of a collection has its document stored, unless a later entity or the collection itself has the same id |
| StoreProperties.LookupAfterUpdate | src/pyff/store.py:174-177 | looking up an id without `+` just written, with an expiry not yet passed, gives its document back, unless an alias named after that id exists |
| StoreProperties.AliasLookupAfterUpdate | src/pyff/store.py:137-139 | with hex digests, looking up an alias of a written entity resolves as looking up its id does |
| StoreProperties.LookupResolutionOrder | src/pyff/store.py:167-179 | `lookup` tries the composite branch, then the alias, then the document, then the group, each only when the earlier ones do not apply |
| StoreProperties.CompositeLookupFindsNothing | src/pyff/store.py:168-173 | a fresh composite lookup stores the intersection under the digest for 30 seconds, but then reads `<digest>#members`, which it never wrote, and gives an empty list |
| StoreProperties.CompositeLookupReadsEmptyGroup | src/pyff/store.py:173 | the recursive lookup of the digest finds neither alias, document nor group |
| StoreProperties.LookupEachPointwise | src/pyff/store.py:163 | the comprehension succeeds exactly when every lookup in its turn does; then item i is the i-th lookup's result, in the state the lookups before it left; otherwise it stops with the first failing lookup's error and state |
| StoreProperties.MembersPointwise | src/pyff/store.py:161-163 | `members` of a sorted set gives, in expiry order, the result of looking up each unexpired member in its turn |
| StoreProperties.LookupEachDocuments | src/pyff/store.py:163 | looking up ids that each name a document gives those documents in order and changes nothing |
| StoreProperties.MembersOfDocuments | src/pyff/store.py:161-163 | when every unexpired member names a document, `members` gives exactly those documents, in expiry order |
| StoreProperties.AttributeAfterEntityUpdate | src/pyff/store.py:108-109 | a value indexed with an expiry not yet passed is listed by `attribute` |
| StoreProperties.SizeAfterCollectionUpdate | src/pyff/store.py:181-182 | after a collection with unexpired entities is written, its entities are counted by `size`, which is positive |
| StoreProperties.SetThenGet | src/pyff/store.py:114-118 | `get(key)` after `set(key, mapping)` gives the old fields overridden by the mapping; every other key reads as before |
| StoreProperties.PeriodicPrunesEntities | src/pyff/store.py:74 | `entities` keeps exactly the members whose expiry lies after now, with their expiries |
| StoreProperties.PeriodicKeepsOtherGroups | src/pyff/store.py:76-81 | only `entities`, `%s#members` and `%s#values` are pruned: no other group and no `<attr>#values` loses an expired member |
| StoreProperties.PeriodicDropsEmptyCollections | src/pyff/store.py:75-79 | a collection other than `entities` and `%s` stays registered exactly when it was and its group has a member, expired or not |
| StoreProperties.PeriodicDropsAttributes | src/pyff/store.py:80-84 | an attribute stays in `#attributes` exactly when it was and `<name>#members`, not `<name>#values`, has a member |
| StoreProperties.ExpiringNowIsFreshButPruned | src/pyff/store.py:74 | an entity expiring exactly now is still counted by readers at now, yet `periodic` at now removes it |
| StoreProperties.PeriodicIdempotentOnGroups | src/pyff/store.py:71-84 | a second `periodic` at the same instant changes no sorted set |
| StoreProperties.PeriodicIdempotentOnCollections | src/pyff/store.py:75-79 | a second `periodic` at the same instant drops no further collection |
| StoreProperties.PeriodicIdempotentOnAttributes | src/pyff/store.py:80-84 | a second `periodic` at the same instant drops no further attribute |

## Findings

| source | as written | input that shows it | evidently intended | confidence | as-written member | corrected member |
|---|---|---|---|---|---|---|
| src/pyff/store.py:147 | `self._expiration(relt, ts)` calls a method defined at line 50 with one parameter besides `self`, so Python raises TypeError | any `EntitiesDescriptor` | `self._expiration(relt)`, the expiry the collection's own attributes give | high (not executed) | MetadataStore.UpdateAsWritten, StoreProperties.CollectionUpdateFailsAsWritten | MetadataStore.Update, StoreProperties.UpdateCollectionGroups |

The rest of the model uses the one-argument reading. Under that reading the
`ts` passed to `update` plays no part for a collection
(`StoreProperties.CollectionIgnoresGivenExpiry`).

Other behaviours of the code as written are modelled as they are, and
stated as properties rather than corrected:

- The collection loop of `periodic` prunes the literal key `%s#members` and not each collection's group (`PeriodicKeepsOtherGroups`, `PeriodicDropsEmptyCollections`).
- The attribute loop prunes `%s#values` and tests `<name>#members` (`PeriodicDropsAttributes`).
- A composite lookup stores the intersection under the bare digest but then reads `<digest>#members` (`CompositeLookupFindsNothing`).
- `lookup` sends every key containing `+` to the composite branch, so an entity whose entityID contains `+` is never found by its own id; `LookupAfterUpdate` holds only for ids without `+`, and `CompositeLookupFindsNothing` shows what such a lookup returns.
- `periodic` treats an entry whose expiry equals now as expired, but readers treat it as live (`ExpiringNowIsFreshButPruned`).
- The alias loop sets an expiry on the bare digest key rather than on the alias key (`RegisterAliases`).

## Left out

- The Redis connection, pipelines as transactions, and concurrency. Each batch is applied in order, with no interleaving and no failure halfway.
- Expiry is recorded, not enforced. No key disappears on its own; readers filter by score against `now`, as the code does. Redis deletes a key at once when EXPIREAT names an instant already past; the model records that instant instead, so `StoreProperties.LookupAfterUpdate` requires an expiry after `now`.
- Type clashes on writes: each write addresses its own kind's map, so a key may hold values of two kinds. In Redis, SET and the ZINTERSTORE destination replace a value of another kind, and the other writes (HMSET, SADD, ZADD, ZREMRANGEBYSCORE, SREM) raise WRONGTYPE; the model keeps both values in either case. Reads give `WrongKind` where `lookup` can meet another kind: GET of `<key>#alias` and `<key>#metadata`, and ZRANGEBYSCORE of `<k>#members` (an entity written under the id `g#members` has a hash there).
- MetadataStore.Attribute: a `<attr>#values` of another kind reads as empty, where Redis raises WRONGTYPE.
- MetadataStore.Size: an `entities#members` of another kind reads as empty, where Redis raises WRONGTYPE.
- MetadataStore.Attributes: a `#attributes` of another kind reads as empty, where Redis raises WRONGTYPE; so does `#collections` for `MetadataStore.Collections`.
- MetadataStore.GetHashAll: a key of another kind reads as the empty hash, where Redis raises WRONGTYPE.
- XML parsing and serialization (`parse_xml`, `dumptree`, `root`). A document is its serialized text plus the attributes and structure the store reads; the XPath searches are the fields of `Documents.Entity` and `Documents.Collection`.
- The date and duration parsers (`iso8601.parse_date`, `duration2timedelta`, `totimestamp`). `validUntil` and `cacheDuration` arrive already converted to an optional instant and an optional number of seconds, present exactly when the attribute is (`Documents.HintsMatch`). An unparsable value raises in the code (`parse_date` raises, and a None duration makes line 62 raise TypeError); that error is not modelled.
- Documents.IsIdp and Documents.IsSp: the search for a descendant IDPSSODescriptor or SPSSODescriptor is the set `Entity.roles` of descriptors the entity holds; their contract-bearing partner is `Documents.Roles`.
- `hex_digest` is a configuration function. `ValidConfig` assumes only that it yields lower-case hex digits. `Config.hexDigest` and `Config.compositeDigest` are independent parameters: the model does not tie the one-argument `hex_digest(key)` to the SHA-1 digest that its default hash would give.
- The clock (`_now`, `datetime.now`) is the parameter `now`. `Expiration` uses the same `now` for both clock readings.
- Logging, the unused `version`, `merge_strategy` and `stats` parameters, and the Redis client created in `__init__`.
- The order of a Python dict and of `smembers`. Every write in the attribute loop and in `periodic` commutes, so the loops are modelled as whole-set operations.
- MetadataStore.Lookup: Python's recursion limit is modelled by a `fuel` bound. When fuel runs out, the result is `RecursionLimit`.
- MetadataStore.UpdateChildren: its own contract states only that the indexes keep their entries. The stored documents and the frame on other documents are stated by `MetadataStore.ChildrenDocuments`. The stop at the first unreadable entity is stated by `StoreProperties.UpdateChildrenStops`.
- MetadataStore.Periodic: its own contract states only that documents, hashes and the other keys' expiries are untouched. What it does to sorted sets and to `#collections` and `#attributes` is stated by the `StoreProperties.Periodic*` lemmas. ZREMRANGEBYSCORE of `entities#members`, `%s#members` or `%s#values` holding another kind does nothing, and ZCARD of a group of another kind reads as 0; Redis raises WRONGTYPE for both.
- MetadataStore.RegisterAliases: does not state where the digest keys' expiries end up, only that they do not reach the alias keys.
- MetadataStore.EntityUpdate: its own contract states the documents, index growth and frames. The hash, index entries and aliases are stated by the `StoreProperties.EntityUpdate*` lemmas.
- StoreProperties.LookupAfterUpdate: the alias exception is stated on the state after `update`, not as a condition on the input.
- KeyStore.ZDelete and KeyStore.StoreZset: they do not model a destination key that holds another kind of value.
- KeyStore.ZInterStore: a source key of another kind reads as empty. In Redis a set source counts its members at score 1, and a string or hash source raises WRONGTYPE.
- MetadataStore.LookupEach: its own contract states only the count; the result of each lookup in its turn is stated by `StoreProperties.LookupEachPointwise`.

=== FILE: documents.dfy ===
/**
 * The metadata documents the store indexes, reduced to what it reads from
 * them, and the attribute extraction of `entity_attribute_dict`,
 * `is_idp` and `is_sp`.
 *
 * XML parsing is outside the model: an element is given by its root
 * attributes, the pieces the store looks up inside it, and its serialized
 * text (what `dumptree` produces).
 */
module Documents {
  import opened Wrappers
  import opened Text

  /** A role descriptor element found below an entity, in document order. */
  datatype RoleDescriptor = IdpSso | SpSso | OtherRole(tag: string)

  /**
   * A saml `Attribute` element: its `Name` attribute, if any, and the
   * texts of its `AttributeValue` children in document order; None for a
   * child without text, whose `text` lxml gives as None.
   */
  datatype SamlAttribute = SamlAttribute(name: Option<string>, values: seq<Option<string>>)

  /** An mdattr `EntityAttributes` element: the `Attribute` elements below it. */
  type AttributeBlock = seq<SamlAttribute>

  /** An `EntityDescriptor` element. */
  datatype Entity = Entity(
    attrs: map<string, string>,
    roles: seq<RoleDescriptor>,
    blocks: seq<AttributeBlock>,
    xml: string)

  /**
   * An `EntitiesDescriptor` element.  `validUntil` is the instant parser's
   * reading of the `validUntil` attribute and `cacheDuration` the duration
   * parser's reading of `cacheDuration`, in seconds; each is None when the
   * attribute is absent (see `HintsMatch`).  `entities` lists
   * every `EntityDescriptor` below the element, at any depth, in document
   * order.
   */
  datatype Collection = Collection(
    attrs: map<string, string>,
    validUntil: Option<int>,
    cacheDuration: Option<int>,
    entities: seq<Entity>,
    xml: string)

  /**
   * The parsed hints agree with the attributes they are read from.  A
   * value neither parser accepts makes `_expiration` raise (the instant
   * parser raises, and a None duration cannot be added to a datetime), so
   * a hint is present exactly when its attribute is.
   */
  predicate HintsMatch(c: Collection) {
    && ("validUntil" in c.attrs <==> c.validUntil.Some?)
    && ("cacheDuration" in c.attrs <==> c.cacheDuration.Some?)
  }

  /** The root element of a document handed to the store. */
  datatype Document =
    | EntityDoc(entity: Entity)
    | CollectionDoc(collection: Collection)
    | OtherDoc(tag: string)

  /** `elt.get(name)`. */
  function AttrValue(attrs: map<string, string>, name: string): Option<string> {
    if name in attrs then Some(attrs[name]) else None
  }

  /** `"%s" % x` for an optional string: Python renders None as "None". */
  function PyStr(x: Option<string>): string {
    match x
    case Some(s) => s
    case None => "None"
  }

  /** The key an entity is stored under when no explicit id is given. */
  function EntityId(e: Entity): string {
    PyStr(AttrValue(e.attrs, "entityID"))
  }

  predicate IsIdp(e: Entity) {
    IdpSso in e.roles
  }

  predicate IsSp(e: Entity) {
    SpSso in e.roles
  }

  // ---------------------------------------------------------------------
  // The attribute dictionary.  A Python dict is modelled as a list of
  // (key, values) pairs with distinct keys; keys are optional because an
  // `Attribute` without `Name` is stored under the key None.  Every write
  // the store derives from the dictionary uses the same member and score,
  // so the order in which it visits the pairs does not matter.

  type AttrKey = Option<string>
  type AttrDict = seq<(AttrKey, seq<string>)>

  /** `ATTRS['role']` of pyff.constants. */
  const RoleAttribute := "http://pyff.io/role"

  predicate DistinctKeys(d: AttrDict) {
    forall i, j :: 0 <= i < j < |d| ==> d[i].0 != d[j].0
  }

  /** `d.get(k)`. */
  function DictGet(d: AttrDict, k: AttrKey): (r: Option<seq<string>>)
    ensures r.Some? <==> exists i :: 0 <= i < |d| && d[i].0 == k
    ensures r.Some? ==> exists i :: 0 <= i < |d| && d[i] == (k, r.value)
  {
    if |d| == 0 then None
    else if d[|d| - 1].0 == k then Some(d[|d| - 1].1)
    else DictGet(d[..|d| - 1], k)
  }

  /** `d[k] = v`: replaces the entry for `k` in place, or appends one. */
  function Put(d: AttrDict, k: AttrKey, v: seq<string>): (r: AttrDict)
    requires DistinctKeys(d)
    ensures DistinctKeys(r)
    ensures DictGet(r, k) == Some(v)
    ensures forall j :: j != k ==> DictGet(r, j) == DictGet(d, j)
    decreases |d|
  {
    if |d| == 0 then [(k, v)]
    else if d[|d| - 1].0 == k then d[..|d| - 1] + [(k, v)]
    else
      var last := d[|d| - 1];
      var front := Put(d[..|d| - 1], k, v);
      var r := front + [last];
      assert r[..|r| - 1] == front;
      assert DictGet(d[..|d| - 1], last.0) == None by {
        assert d[..|d| - 1] + [last] == d;
      }
      assert forall i :: 0 <= i < |front| ==> front[i].0 != last.0;
      r
  }

  /** Every `AttributeValue` of the list has a text. */
  predicate HasTexts(vs: seq<Option<string>>) {
    forall i :: 0 <= i < |vs| ==> vs[i].Some?
  }

  /**
   * The first `Attribute` of every `EntityAttributes` block has texts
   * only: otherwise `v.text.strip()` raises AttributeError on None.
   */
  predicate BlocksReadable(blocks: seq<AttributeBlock>) {
    forall i :: 0 <= i < |blocks| && |blocks[i]| > 0 ==> HasTexts(blocks[i][0].values)
  }

  /** `entity_attribute_dict` completes on the entity. */
  predicate Readable(e: Entity) {
    BlocksReadable(e.blocks)
  }

  /** Every entity of the list is `Readable`. */
  predicate AllReadable(es: seq<Entity>) {
    forall i :: 0 <= i < |es| ==> Readable(es[i])
  }

  /** The stripped texts of a list of `AttributeValue` elements. */
  function StripAll(vs: seq<Option<string>>): (r: seq<string>)
    requires HasTexts(vs)
    ensures |r| == |vs|
    ensures forall i :: 0 <= i < |vs| ==> r[i] == TextStrip(vs[i].value)
  {
    seq(|vs|, i requires 0 <= i < |vs| => TextStrip(vs[i].value))
  }

  /**
   * The loop over `EntityAttributes` blocks: for each block, the first
   * `Attribute` below it (if any) is entered under its `Name`.
   */
  function BlocksDict(blocks: seq<AttributeBlock>): (d: AttrDict)
    requires BlocksReadable(blocks)
    ensures DistinctKeys(d)
    decreases |blocks|
  {
    if |blocks| == 0 then []
    else
      assert forall i :: 0 <= i < |blocks| - 1 ==> blocks[..|blocks| - 1][i] == blocks[i];
      var d := BlocksDict(blocks[..|blocks| - 1]);
      var b := blocks[|blocks| - 1];
      if |b| == 0 then d else Put(d, b[0].name, StripAll(b[0].values))
  }

  /** The `role` list: "idp" when an IDP descriptor is present, then "sp" when an SP descriptor is. */
  function Roles(e: Entity): (r: seq<string>)
    ensures "idp" in r <==> IsIdp(e)
    ensures "sp" in r <==> IsSp(e)
    ensures IsIdp(e) ==> r[0] == "idp"
    ensures forall x :: x in r ==> x == "idp" || x == "sp"
    ensures |r| == (if IsIdp(e) then 1 else 0) + (if IsSp(e) then 1 else 0)
  {
    (if IsIdp(e) then ["idp"] else []) + (if IsSp(e) then ["sp"] else [])
  }

  /**
   * `entity_attribute_dict(entity)`: the dictionary, or None where the
   * function raises.
   */
  function EntityAttributeDict(e: Entity): (r: Option<AttrDict>)
    ensures r.Some? <==> Readable(e)
    ensures r.Some? ==> DistinctKeys(r.value)
    ensures r.Some? ==> DictGet(r.value, Some(RoleAttribute)) == Some(Roles(e))
    ensures Readable(e) ==> forall k :: k != Some(RoleAttribute) ==> DictGet(r.value, k) == DictGet(BlocksDict(e.blocks), k)
  {
    if Readable(e) then Some(Put(BlocksDict(e.blocks), Some(RoleAttribute), Roles(e))) else None
  }

  // ---------------------------------------------------------------------
  // What the dictionary holds, stated against the blocks directly.

  /** Block `i` is an `EntityAttributes` whose first `Attribute` is named `k`. */
  predicate Names(blocks: seq<AttributeBlock>, i: int, k: AttrKey) {
    0 <= i < |blocks| && |blocks[i]| > 0 && blocks[i][0].name == k
  }

  /**
   * The entry for a name comes from the LAST block whose first attribute
   * carries that name: a later block overwrites an earlier one, and only
   * the first attribute of a block is read.
   */
  lemma {:induction false} DictFollowsLastBlock(blocks: seq<AttributeBlock>, k: AttrKey, i: int)
    requires BlocksReadable(blocks)
    requires Names(blocks, i, k)
    requires forall j :: i < j < |blocks| ==> !Names(blocks, j, k)
    ensures DictGet(BlocksDict(blocks), k) == Some(StripAll(blocks[i][0].values))
    decreases |blocks|
  {
    var front := blocks[..|blocks| - 1];
    if i < |blocks| - 1 {
      assert forall j :: 0 <= j < |front| ==> (Names(front, j, k) <==> Names(blocks, j, k));
      assert Names(front, i, k);
      assert !Names(blocks, |blocks| - 1, k);
      DictFollowsLastBlock(front, k, i);
    }
  }

  /** A name no block's first attribute carries has no entry. */
  lemma {:induction false} DictMissesUnnamed(blocks: seq<AttributeBlock>, k: AttrKey)
    requires BlocksReadable(blocks)
    requires forall j :: 0 <= j < |blocks| ==> !Names(blocks, j, k)
    ensures DictGet(BlocksDict(blocks), k) == None
    decreases |blocks|
  {
    if |blocks| > 0 {
      var front := blocks[..|blocks| - 1];
      assert forall j :: 0 <= j < |front| ==> (Names(front, j, k) <==> Names(blocks, j, k));
      DictMissesUnnamed(front, k);
      assert !Names(blocks, |blocks| - 1, k);
    }
  }
}

=== FILE: keystore.dfy ===
/**
 * The part of Redis the metadata store uses, as an immutable value.
 *
 * Each kind of value lives in its own map: plain strings, hashes, sets and
 * sorted sets (a map from member to integer score).  Every key may carry an
 * absolute expiry instant; the clock never evicts anything here, the
 * instant is only recorded.  Like Redis, the model never keeps an empty
 * set or sorted set: removing the last member deletes the key.
 */
module KeyStore {
  import opened Wrappers
  import opened Text

  type Zset = map<string, int>

  datatype State = State(
    strings: map<string, string>,
    hashes: map<string, map<string, string>>,
    sets: map<string, set<string>>,
    zsets: map<string, Zset>,
    expiry: map<string, int>)

  /** An empty database, the state after FLUSHDB. */
  const Empty := State(map[], map[], map[], map[], map[])

  /** EXISTS: the key holds a value of some kind. */
  predicate Exists(st: State, k: string) {
    k in st.strings || k in st.hashes || k in st.sets || k in st.zsets
  }

  /** The shape Redis guarantees: no empty aggregate, no expiry on a missing key. */
  predicate WellFormed(st: State) {
    && (forall k :: k in st.hashes ==> st.hashes[k] != map[])
    && (forall k :: k in st.sets ==> st.sets[k] != {})
    && (forall k :: k in st.zsets ==> st.zsets[k] != map[])
    && (forall k :: k in st.expiry ==> Exists(st, k))
  }

  // Per-key views, used to state which keys an operation leaves alone.

  function GetString(st: State, k: string): Option<string> {
    if k in st.strings then Some(st.strings[k]) else None
  }

  function GetHash(st: State, k: string): Option<map<string, string>> {
    if k in st.hashes then Some(st.hashes[k]) else None
  }

  function GetSet(st: State, k: string): Option<set<string>> {
    if k in st.sets then Some(st.sets[k]) else None
  }

  function GetZset(st: State, k: string): Option<Zset> {
    if k in st.zsets then Some(st.zsets[k]) else None
  }

  function GetExpiry(st: State, k: string): Option<int> {
    if k in st.expiry then Some(st.expiry[k]) else None
  }

  /** SMEMBERS: a missing key reads as the empty set. */
  function SMembers(st: State, k: string): set<string> {
    if k in st.sets then st.sets[k] else {}
  }

  /** ZSCORE is defined: `m` is a member of the sorted set at `k`. */
  predicate InZset(st: State, k: string, m: string) {
    k in st.zsets && m in st.zsets[k]
  }

  /** `m` is a member of the sorted set at `k` with score `score`. */
  predicate Scored(st: State, k: string, m: string, score: int) {
    InZset(st, k, m) && st.zsets[k][m] == score
  }

  /** A missing key reads as the empty sorted set. */
  function ZsetOrEmpty(st: State, k: string): Zset {
    if k in st.zsets then st.zsets[k] else map[]
  }

  /** Drops the expiry of a key that no longer holds any value. */
  function ForgetExpiry(st: State, k: string): State {
    if Exists(st, k) then st else st.(expiry := st.expiry - {k})
  }

  /** SET: stores the string and, like Redis, discards any expiry the key had. */
  function Set(st: State, k: string, v: string): (r: State)
    ensures GetString(r, k) == Some(v) && GetExpiry(r, k) == None
    ensures forall j :: j != k ==> GetString(r, j) == GetString(st, j) && GetExpiry(r, j) == GetExpiry(st, j)
    ensures r.hashes == st.hashes && r.sets == st.sets && r.zsets == st.zsets
    ensures WellFormed(st) ==> WellFormed(r)
  {
    st.(strings := st.strings[k := v], expiry := st.expiry - {k})
  }

  /** EXPIREAT: records an absolute expiry; a missing key is left alone. */
  function ExpireAt(st: State, k: string, t: int): (r: State)
    ensures GetExpiry(r, k) == if Exists(st, k) then Some(t) else GetExpiry(st, k)
    ensures forall j :: j != k ==> GetExpiry(r, j) == GetExpiry(st, j)
    ensures r.strings == st.strings && r.hashes == st.hashes && r.sets == st.sets && r.zsets == st.zsets
    ensures WellFormed(st) ==> WellFormed(r)
  {
    if Exists(st, k) then st.(expiry := st.expiry[k := t]) else st
  }

  /** EXPIRE: an expiry `secs` seconds after `now`. */
  function Expire(st: State, k: string, secs: int, now: int): State {
    ExpireAt(st, k, now + secs)
  }

  /** HMSET: writes the given fields; fields already there and not given stay. */
  function HSetAll(st: State, k: string, fields: map<string, string>): (r: State)
    ensures k in r.hashes
    ensures forall f :: f in fields ==> f in r.hashes[k] && r.hashes[k][f] == fields[f]
    ensures forall f :: f in HGetAll(st, k) && f !in fields ==> f in r.hashes[k] && r.hashes[k][f] == HGetAll(st, k)[f]
    ensures forall f :: f in r.hashes[k] ==> f in fields || f in HGetAll(st, k)
    ensures forall j :: j != k ==> GetHash(r, j) == GetHash(st, j)
    ensures r.strings == st.strings && r.sets == st.sets && r.zsets == st.zsets && r.expiry == st.expiry
    ensures fields != map[] && WellFormed(st) ==> WellFormed(r)
  {
    var prior := HGetAll(st, k);
    st.(hashes := st.hashes[k := prior + fields])
  }

  /** HGETALL: a missing key reads as the empty hash. */
  function HGetAll(st: State, k: string): map<string, string> {
    if k in st.hashes then st.hashes[k] else map[]
  }

  /** SADD of one member. */
  function SAdd(st: State, k: string, m: string): (r: State)
    ensures SMembers(r, k) == SMembers(st, k) + {m}
    ensures forall j :: j != k ==> GetSet(r, j) == GetSet(st, j)
    ensures r.strings == st.strings && r.hashes == st.hashes && r.zsets == st.zsets && r.expiry == st.expiry
    ensures WellFormed(st) ==> WellFormed(r)
  {
    st.(sets := st.sets[k := SMembers(st, k) + {m}])
  }

  /** SREM of several members at once; removing the last member deletes the key. */
  function SRemAll(st: State, k: string, gone: set<string>): (r: State)
    ensures GetSet(r, k) == if SMembers(st, k) - gone == {} then None else Some(SMembers(st, k) - gone)
    ensures forall j :: j != k ==> GetSet(r, j) == GetSet(st, j)
    ensures forall j :: j != k ==> GetExpiry(r, j) == GetExpiry(st, j)
    ensures r.strings == st.strings && r.hashes == st.hashes && r.zsets == st.zsets
    ensures WellFormed(st) ==> WellFormed(r)
  {
    if k !in st.sets then st
    else
      var rest := st.sets[k] - gone;
      if rest == {} then ForgetExpiry(st.(sets := st.sets - {k}), k)
      else st.(sets := st.sets[k := rest])
  }

  /** ZADD of one member: inserts it or replaces its score. */
  function ZAdd(st: State, k: string, m: string, score: int): (r: State)
    ensures Scored(r, k, m, score)
    ensures forall x :: x != m ==> (InZset(r, k, x) <==> InZset(st, k, x))
    ensures forall x :: x != m && InZset(st, k, x) ==> Scored(r, k, x, st.zsets[k][x])
    ensures forall j :: j != k ==> GetZset(r, j) == GetZset(st, j)
    ensures r.strings == st.strings && r.hashes == st.hashes && r.sets == st.sets && r.expiry == st.expiry
    ensures WellFormed(st) ==> WellFormed(r)
  {
    var z := ZsetOrEmpty(st, k)[m := score];
    assert m in z;
    st.(zsets := st.zsets[k := z])
  }

  /** ZCARD: number of members, 0 for a missing key. */
  function ZCard(st: State, k: string): nat {
    |ZsetOrEmpty(st, k)|
  }

  /** The members whose score lies in `[lo, +inf)`. */
  function Fresh(z: Zset, lo: int): set<string> {
    set m | m in z && z[m] >= lo
  }

  /**
   * ZREMRANGEBYSCORE k -inf hi: removes every member scored at most `hi`
   * (the bound is inclusive); removing the last member deletes the key.
   */
  function ZRemRangeByScore(st: State, k: string, hi: int): (r: State)
    ensures forall m :: InZset(r, k, m) <==> InZset(st, k, m) && st.zsets[k][m] > hi
    ensures forall m :: InZset(r, k, m) ==> InZset(st, k, m) && r.zsets[k][m] == st.zsets[k][m]
    ensures GetZset(r, k) != Some(map[])
    ensures forall j :: j != k ==> GetZset(r, j) == GetZset(st, j)
    ensures forall j :: j != k ==> GetExpiry(r, j) == GetExpiry(st, j)
    ensures r.strings == st.strings && r.hashes == st.hashes && r.sets == st.sets
    ensures WellFormed(st) ==> WellFormed(r)
  {
    if k !in st.zsets then st
    else
      var z := st.zsets[k];
      var kept := map m | m in z && z[m] > hi :: z[m];
      assert forall m :: m in z && z[m] > hi ==> m in kept;
      if kept == map[] then ForgetExpiry(st.(zsets := st.zsets - {k}), k)
      else st.(zsets := st.zsets[k := kept])
  }

  /**
   * Pruning at the same bound a sorted set that a prune left behind
   * changes nothing: the prune is idempotent, wherever the pruned set
   * has been carried since.
   */
  lemma ZRemRangeByScoreAgain(x: State, y: State, k: string, hi: int)
    requires GetZset(y, k) == GetZset(ZRemRangeByScore(x, k, hi), k)
    ensures GetZset(ZRemRangeByScore(y, k, hi), k) == GetZset(y, k)
  {
    hide WellFormed;
    var p := ZRemRangeByScore(x, k, hi);
    assert forall m :: InZset(y, k, m) ==> InZset(p, k, m) && y.zsets[k][m] == p.zsets[k][m];
    if k in y.zsets {
      var z := y.zsets[k];
      var kept := map m | m in z && z[m] > hi :: z[m];
      assert forall m :: m in z ==> m in kept;
      assert kept == z;
    }
  }

  // ---------------------------------------------------------------------
  // Range reads.  Redis orders a sorted set by score, breaking ties by the
  // members' bytes.

  /** `a` comes before `b` in the order of the sorted set `z`. */
  predicate Before(z: Zset, a: string, b: string) {
    a in z && b in z && (z[a] < z[b] || (z[a] == z[b] && LexLess(a, b)))
  }

  lemma BeforeIsStrictTotalOrder(z: Zset)
    ensures forall a :: !Before(z, a, a)
    ensures forall a, b :: Before(z, a, b) ==> !Before(z, b, a)
    ensures forall a, b, c :: Before(z, a, b) && Before(z, b, c) ==> Before(z, a, c)
    ensures forall a, b :: a in z && b in z && a != b ==> Before(z, a, b) || Before(z, b, a)
  {
    forall a ensures !Before(z, a, a) {
      LexLessIrreflexive(a);
    }
    forall a, b ensures Before(z, a, b) ==> !Before(z, b, a) {
      LexLessAsymmetric(a, b);
    }
    forall a, b, c | Before(z, a, b) && Before(z, b, c) ensures Before(z, a, c) {
      if z[a] == z[b] == z[c] {
        LexLessTransitive(a, b, c);
      }
    }
    forall a, b | a in z && b in z && a != b ensures Before(z, a, b) || Before(z, b, a) {
      LexLessTotal(a, b);
    }
  }

  /** `m` is the first member of `s` in the order of `z`. */
  predicate IsLeast(z: Zset, s: set<string>, m: string) {
    m in s && forall x :: x in s && x != m ==> Before(z, m, x)
  }

  lemma {:induction false} LeastExists(z: Zset, s: set<string>)
    requires s != {} && s <= z.Keys
    ensures exists m :: IsLeast(z, s, m)
    decreases s
  {
    BeforeIsStrictTotalOrder(z);
    var x :| x in s;
    if s == {x} {
      assert IsLeast(z, s, x);
    } else {
      LeastExists(z, s - {x});
      var m :| IsLeast(z, s - {x}, m);
      if Before(z, x, m) {
        assert IsLeast(z, s, x);
      } else {
        assert IsLeast(z, s, m);
      }
    }
  }

  /** The first member of `s` in the order of `z`. */
  function Least(z: Zset, s: set<string>): (m: string)
    requires s != {} && s <= z.Keys
    ensures IsLeast(z, s, m)
  {
    LeastExists(z, s);
    BeforeIsStrictTotalOrder(z);
    var m :| IsLeast(z, s, m); m
  }

  /** The members of `s` listed in the order of `z`, each exactly once. */
  function Ordered(z: Zset, s: set<string>): (r: seq<string>)
    requires s <= z.Keys
    ensures |r| == |s|
    ensures forall m :: m in r <==> m in s
    ensures forall i, j :: 0 <= i < j < |r| ==> Before(z, r[i], r[j])
    decreases s
  {
    if s == {} then []
    else
      var m := Least(z, s);
      [m] + Ordered(z, s - {m})
  }

  /**
   * ZRANGEBYSCORE k lo +inf: the members scored at least `lo`, in score
   * order, each once; a missing key reads as empty.
   */
  function ZRangeByScore(st: State, k: string, lo: int): (r: seq<string>)
    ensures forall m :: m in r <==> InZset(st, k, m) && st.zsets[k][m] >= lo
    ensures forall i, j :: 0 <= i < j < |r| ==> k in st.zsets && Before(st.zsets[k], r[i], r[j])
    ensures |r| == |Fresh(ZsetOrEmpty(st, k), lo)|
  {
    var z := ZsetOrEmpty(st, k);
    Ordered(z, Fresh(z, lo))
  }

  /** ZCOUNT k lo +inf. */
  function ZCount(st: State, k: string, lo: int): nat {
    |Fresh(ZsetOrEmpty(st, k), lo)|
  }

  // ---------------------------------------------------------------------
  // ZINTERSTORE with AGGREGATE MIN.

  /** Two sorted sets' common members, each scored by the lesser of its two scores. */
  function MinMerge(a: Zset, b: Zset): (r: Zset)
    ensures forall m :: m in r <==> m in a && m in b
    ensures forall m :: m in r ==> r[m] <= a[m] && r[m] <= b[m] && (r[m] == a[m] || r[m] == b[m])
  {
    map m | m in a && m in b :: if a[m] <= b[m] then a[m] else b[m]
  }

  /** The members common to all sorted sets, each scored by its least score. */
  function Inter(zs: seq<Zset>): (r: Zset)
    requires |zs| >= 1
    ensures forall m :: m in r <==> forall i :: 0 <= i < |zs| ==> m in zs[i]
    ensures forall m, i :: m in r && 0 <= i < |zs| ==> r[m] <= zs[i][m]
    decreases |zs|
  {
    hide MinMerge;
    if |zs| == 1 then zs[0]
    else
      var rest := Inter(zs[1..]);
      var r := MinMerge(zs[0], rest);
      assert forall i :: 1 <= i < |zs| ==> zs[i] == zs[1..][i - 1];
      r
  }

  /** The score AGGREGATE MIN keeps is one of the member's scores, not just a lower bound. */
  lemma {:induction false} InterScoreIsASourceScore(zs: seq<Zset>, m: string)
    requires |zs| >= 1 && m in Inter(zs)
    ensures exists i :: 0 <= i < |zs| && Inter(zs)[m] == zs[i][m]
    decreases |zs|
  {
    if |zs| > 1 {
      var rest := Inter(zs[1..]);
      if Inter(zs)[m] == zs[0][m] {
        assert 0 <= 0 < |zs|;
      } else {
        InterScoreIsASourceScore(zs[1..], m);
        var j :| 0 <= j < |zs[1..]| && rest[m] == zs[1..][j][m];
        assert Inter(zs)[m] == zs[j + 1][m];
      }
    }
  }

  /** The sorted sets stored at `srcs`, a missing key reading as empty. */
  function Sources(st: State, srcs: seq<string>): (zs: seq<Zset>)
    ensures |zs| == |srcs|
    ensures forall i :: 0 <= i < |srcs| ==> zs[i] == ZsetOrEmpty(st, srcs[i])
  {
    seq(|srcs|, i requires 0 <= i < |srcs| => ZsetOrEmpty(st, srcs[i]))
  }

  /** Deletes the sorted set at `k`; its expiry goes with it unless another value keeps the key. */
  function ZDelete(st: State, k: string): (r: State)
    ensures GetZset(r, k) == None
    ensures !Exists(r, k) ==> GetExpiry(r, k) == None
    ensures forall j :: j != k ==> GetZset(r, j) == GetZset(st, j) && GetExpiry(r, j) == GetExpiry(st, j)
    ensures r.strings == st.strings && r.hashes == st.hashes && r.sets == st.sets
    ensures WellFormed(st) ==> WellFormed(r)
  {
    var s1 := st.(zsets := st.zsets - {k});
    if Exists(s1, k) then s1 else s1.(expiry := s1.expiry - {k})
  }

  /**
   * Writes a computed sorted set to `k`, as a *STORE command does: the
   * key's old value and expiry go, and an empty result deletes the key.
   */
  function StoreZset(st: State, k: string, z: Zset): (r: State)
    ensures GetZset(r, k) == if z == map[] then None else Some(z)
    ensures z != map[] ==> GetExpiry(r, k) == None
    ensures forall j :: j != k ==> GetZset(r, j) == GetZset(st, j) && GetExpiry(r, j) == GetExpiry(st, j)
    ensures r.strings == st.strings && r.hashes == st.hashes && r.sets == st.sets
    ensures WellFormed(st) ==> WellFormed(r)
  {
    if z == map[] then ZDelete(st, k)
    else st.(zsets := st.zsets[k := z], expiry := st.expiry - {k})
  }

  /**
   * ZINTERSTORE dest srcs AGGREGATE MIN: replaces `dest` (and drops its
   * expiry) with the intersection; an empty intersection deletes `dest`.
   */
  function ZInterStore(st: State, dest: string, srcs: seq<string>): (r: State)
    requires |srcs| >= 1
    ensures var inter := Inter(Sources(st, srcs));
      GetZset(r, dest) == if inter == map[] then None else Some(inter)
    ensures forall j :: j != dest ==> GetZset(r, j) == GetZset(st, j) && GetExpiry(r, j) == GetExpiry(st, j)
    ensures r.strings == st.strings && r.hashes == st.hashes && r.sets == st.sets
    ensures WellFormed(st) ==> WellFormed(r)
  {
    StoreZset(st, dest, Inter(Sources(st, srcs)))
  }

  // ---------------------------------------------------------------------
  // Relations between two states.

  /**
   * `b` keeps every member of every set and sorted set of `a`, and a kept
   * score is either unchanged or `ts`: what a batch of SADDs and ZADDs at
   * score `ts` leaves behind.
   */
  ghost predicate Extends(a: State, b: State, ts: int) {
    && (forall k, m :: m in SMembers(a, k) ==> m in SMembers(b, k))
    && (forall k, m :: InZset(a, k, m) ==> InZset(b, k, m) && (b.zsets[k][m] == a.zsets[k][m] || b.zsets[k][m] == ts))
  }

  /** States with the same sets and sorted sets read alike at every key. */
  lemma SameKinds(a: State, b: State)
    requires a.sets == b.sets && a.zsets == b.zsets
    ensures forall k :: GetZset(a, k) == GetZset(b, k) && GetSet(a, k) == GetSet(b, k)
  {
  }

  /** A member scored `ts` keeps that score in any extension at `ts`. */
  lemma ScoredStable(a: State, b: State, k: string, m: string, ts: int)
    requires Scored(a, k, m, ts) && Extends(a, b, ts)
    ensures Scored(b, k, m, ts)
  {
  }

  /** An SADD only adds: the state after it extends the state before, whatever `ts`. */
  lemma SAddExtends(st: State, k: string, m: string, ts: int)
    ensures Extends(st, SAdd(st, k, m), ts)
  {
  }

  /** A registry member stays in any extension. */
  lemma MemberStable(a: State, b: State, k: string, m: string, ts: int)
    requires m in SMembers(a, k) && Extends(a, b, ts)
    ensures m in SMembers(b, k)
  {
  }

  lemma ExtendsTransitive(a: State, b: State, c: State, ts: int)
    requires Extends(a, b, ts) && Extends(b, c, ts)
    ensures Extends(a, c, ts)
  {
  }

  /**
   * `b` differs from `a` only in sorted sets and expiries at keys without a
   * `#`: every document, hash, registry and `#`-suffixed index is the same.
   */
  ghost predicate IndexUntouched(a: State, b: State) {
    && a.strings == b.strings && a.hashes == b.hashes && a.sets == b.sets
    && (forall k :: '#' in k ==> GetZset(a, k) == GetZset(b, k))
    && (forall k :: '#' in k ==> GetExpiry(a, k) == GetExpiry(b, k))
  }
}

=== FILE: properties.dfy ===
/**
 * Properties of the store that relate several operations: what an
 * `update` leaves behind, what `lookup` then finds, and what `periodic`
 * keeps.
 */
module StoreProperties {
  import opened Wrappers
  import opened Text
  import opened KeyStore
  import opened Documents
  import opened MetadataStore

  // ---------------------------------------------------------------------
  // Writing one entity

  /**
   * The entity branch stores the document, and the info hash with the
   * root's attributes, both expiring at `ts`.  The hash keeps that expiry
   * unless `tid` is itself one of the alias keys the branch then SETs,
   * which clears it.
   */
  lemma EntityUpdateStoresDocument(st: State, e: Entity, tid: string, ts: int, cfg: Config)
    requires Readable(e)
    ensures var r := EntityUpdate(st, e, tid, ts, cfg);
      GetString(r, MetadataKey(tid)) == Some(e.xml) && GetExpiry(r, MetadataKey(tid)) == Some(ts)
    ensures tid !in AliasKeys(cfg, tid, AliasHashes) ==> GetExpiry(EntityUpdate(st, e, tid, ts, cfg), tid) == Some(ts)
    ensures var r := EntityUpdate(st, e, tid, ts, cfg);
      && tid in r.hashes
      && (forall f :: f in e.attrs ==> f in r.hashes[tid] && r.hashes[tid][f] == e.attrs[f])
      && ("expires" !in e.attrs ==> "expires" in r.hashes[tid] && r.hashes[tid]["expires"] == ShowInt(ts))
  {
    hide EntityUpdate, UpdateEntity, IndexAttributes, RegisterAliases, EntityAttributeDict, Readable;
    EntityUpdateStep(st, e, tid, ts, cfg);
    var s1 := UpdateEntity(st, e.attrs, e.xml, tid, Some(ts));
    var s2 := IndexAttributes(s1, EntityAttributeDict(e).value, tid, ts);
    MetadataIsNotAlias(tid, tid, cfg);
    assert GetExpiry(s2, MetadataKey(tid)) == Some(ts);
    assert GetExpiry(s2, tid) == Some(ts);
  }

  /**
   * The entity branch leaves the three index entries of every (attribute,
   * value) pair of the entity's attribute dictionary, at score `ts`, and
   * registers every attribute name.
   */
  lemma EntityUpdateIndexes(st: State, e: Entity, tid: string, ts: int, cfg: Config)
    requires Readable(e)
    ensures var r := EntityUpdate(st, e, tid, ts, cfg); var d := EntityAttributeDict(e).value;
      forall i, v :: 0 <= i < |d| && v in d[i].1 ==> Indexed(r, PyStr(d[i].0), v, tid, ts)
    ensures var r := EntityUpdate(st, e, tid, ts, cfg); var d := EntityAttributeDict(e).value;
      forall i :: 0 <= i < |d| ==> PyStr(d[i].0) in SMembers(r, AttributesKey)
  {
    hide *;
    EntityUpdateStep(st, e, tid, ts, cfg);
    var d := EntityAttributeDict(e).value;
    var s1 := UpdateEntity(st, e.attrs, e.xml, tid, Some(ts));
    var s2 := IndexAttributes(s1, d, tid, ts);
    var r := RegisterAliases(s2, tid, ts, cfg, AliasHashes);
    AttributesIndexed(s1, d, tid, ts);
    SameIndexesExtend(s2, r, ts);
    forall i, v | 0 <= i < |d| && v in d[i].1 ensures Indexed(r, PyStr(d[i].0), v, tid, ts) {
      IndexedStable(s2, r, PyStr(d[i].0), v, tid, ts);
    }
    forall i | 0 <= i < |d| ensures PyStr(d[i].0) in SMembers(r, AttributesKey) {
      MemberStable(s2, r, AttributesKey, PyStr(d[i].0), ts);
    }
  }

  /** The entity branch maps the alias of `tid` under every hash to `tid`; with real hex digests the alias never expires. */
  lemma EntityUpdateAliases(st: State, e: Entity, tid: string, ts: int, cfg: Config)
    requires Readable(e)
    ensures var r := EntityUpdate(st, e, tid, ts, cfg);
      forall h :: h in AliasHashes ==> GetString(r, AliasKey(AliasName(cfg, h, tid))) == Some(tid)
    ensures var r := EntityUpdate(st, e, tid, ts, cfg);
      ValidConfig(cfg) ==> forall h :: h in AliasHashes ==> GetExpiry(r, AliasKey(AliasName(cfg, h, tid))) == None
  {
    hide EntityUpdate, UpdateEntity, IndexAttributes, RegisterAliases, EntityAttributeDict, Readable;
    EntityUpdateStep(st, e, tid, ts, cfg);
  }

  /** An IDP is a member of the `idp` role group and an SP of the `sp` role group, at score `ts`. */
  lemma EntityUpdateIndexesRoles(st: State, e: Entity, tid: string, ts: int, cfg: Config)
    requires Readable(e)
    ensures var r := EntityUpdate(st, e, tid, ts, cfg);
      IsIdp(e) ==> Scored(r, MembersKey(AttrGroup(RoleAttribute, "idp")), tid, ts)
    ensures var r := EntityUpdate(st, e, tid, ts, cfg);
      IsSp(e) ==> Scored(r, MembersKey(AttrGroup(RoleAttribute, "sp")), tid, ts)
  {
    hide EntityUpdate, UpdateEntity, IndexAttributes, RegisterAliases, EntityAttributeDict, Roles, Readable;
    var d := EntityAttributeDict(e).value;
    EntityUpdateIndexes(st, e, tid, ts, cfg);
    assert DictGet(d, Some(RoleAttribute)) == Some(Roles(e));
    var i :| 0 <= i < |d| && d[i] == (Some(RoleAttribute), Roles(e));
    assert PyStr(d[i].0) == RoleAttribute;
  }

  /** No index entry of an entity goes to the `entities` group: that group is not `{<attr>}<value>` nor `<attr>#values`. */
  lemma EntitiesGroupIsNoIndexKey(d: AttrDict)
    ensures !IndexKey(d, MembersKey(EntitiesGroup))
  {
    var k := MembersKey(EntitiesGroup);
    forall i, v | 0 <= i < |d| && v in d[i].1
      ensures k != MembersKey(AttrGroup(PyStr(d[i].0), v)) && k != ValuesKey(PyStr(d[i].0))
    {
      var g := AttrGroup(PyStr(d[i].0), v);
      SuffixInjective(g, EntitiesGroup, "#members");
      assert g[0] != EntitiesGroup[0];
      var w := ValuesKey(PyStr(d[i].0));
      assert |w| >= 2 && w[|w| - 2] != k[|k| - 2];
    }
  }

  /**
   * Writing an entity leaves the `entities` group as it was: an entity
   * written on its own is not counted by `size` until a collection lists it.
   */
  lemma EntityUpdateKeepsEntities(st: State, e: Entity, tid: string, ts: int, cfg: Config)
    requires Readable(e)
    ensures GetZset(EntityUpdate(st, e, tid, ts, cfg), MembersKey(EntitiesGroup)) == GetZset(st, MembersKey(EntitiesGroup))
  {
    hide EntityUpdate, EntityAttributeDict, Readable, IndexKey;
    EntitiesGroupIsNoIndexKey(EntityAttributeDict(e).value);
  }

  /** The attribute names of a dictionary, as `sadd` receives them. */
  function DictNames(d: AttrDict): set<string> {
    set i | 0 <= i < |d| :: PyStr(d[i].0)
  }

  /** After the entity branch, `attributes()` is what it was plus exactly the names of the entity's attribute dictionary. */
  lemma EntityUpdateAttributes(st: State, e: Entity, tid: string, ts: int, cfg: Config)
    requires Readable(e)
    ensures Attributes(EntityUpdate(st, e, tid, ts, cfg)) == Attributes(st) + DictNames(EntityAttributeDict(e).value)
  {
    hide EntityUpdate, UpdateEntity, IndexAttributes, RegisterAliases, EntityAttributeDict, Readable, WellFormed, SMembers;
    EntityUpdateStep(st, e, tid, ts, cfg);
    var d := EntityAttributeDict(e).value;
    var s1 := UpdateEntity(st, e.attrs, e.xml, tid, Some(ts));
    var s2 := IndexAttributes(s1, d, tid, ts);
    var r := RegisterAliases(s2, tid, ts, cfg, AliasHashes);
    EntityUpdateIndexes(st, e, tid, ts, cfg);
    SameMembers(st, s1, AttributesKey);
    SameMembers(s2, r, AttributesKey);
    forall a | a in Attributes(st) ensures a in Attributes(r) {
      MemberStable(s1, s2, AttributesKey, a, ts);
    }
    forall a | a in Attributes(r) ensures a in Attributes(st) + DictNames(d) {
      if a !in Attributes(st) {
        var i :| 0 <= i < |d| && a == PyStr(d[i].0);
        assert a in DictNames(d);
      }
    }
  }

  // ---------------------------------------------------------------------
  // `update`

  /** The roots `update` completes on: an entity or a collection whose attribute dictionaries can be built. */
  predicate Accepted(doc: Document) {
    match doc
    case EntityDoc(e) => Readable(e)
    case CollectionDoc(c) => AllReadable(c.entities)
    case OtherDoc(_) => false
  }

  /**
   * `update` succeeds exactly on accepted roots.  Any other root raises
   * ValueError and an entity whose dictionary raises AttributeError, both
   * with the store as it was; a collection with such an entity raises
   * AttributeError after the entities before it were written.
   */
  lemma UpdateOutcome(st: State, doc: Document, tid: Option<string>, ts: Option<int>, now: int, cfg: Config)
    ensures var r := Update(st, doc, tid, ts, now, cfg);
      r.1.Success? <==> Accepted(doc)
    ensures var r := Update(st, doc, tid, ts, now, cfg);
      r.1.Failure? ==> r.1.error == (if doc.OtherDoc? then BadTopLevel(doc.tag) else MissingText)
    ensures var r := Update(st, doc, tid, ts, now, cfg);
      !doc.CollectionDoc? && r.1.Failure? ==> r.0 == st
  {
    hide EntityBranch, CollectionBranch, Expiration, Readable, AllReadable, WellFormed;
  }

  /**
   * An entity document is written under the given id, or its `entityID`
   * when none is given, expiring at the given instant, or four days from
   * now when none is given; it counts one, and no other document changes.
   */
  lemma UpdateEntityDocument(st: State, e: Entity, tid: Option<string>, ts: Option<int>, now: int, cfg: Config)
    requires Readable(e)
    ensures var r := Update(st, EntityDoc(e), tid, ts, now, cfg);
      var id := if tid.Some? then tid.value else EntityId(e);
      var t := if ts.Some? then ts.value else now + FourDays;
      && r.1 == Success(1)
      && GetString(r.0, MetadataKey(id)) == Some(e.xml)
      && GetExpiry(r.0, MetadataKey(id)) == Some(t)
      && Extends(st, r.0, t)
      && (forall x :: x != id ==> GetString(r.0, MetadataKey(x)) == GetString(st, MetadataKey(x)))
  {
    hide EntityUpdate, CollectionBranch, UpdateEntity, Readable, Expiration;
    var id := if tid.Some? then tid.value else EntityId(e);
    var t := if ts.Some? then ts.value else now + FourDays;
    EntityUpdateStoresDocument(st, e, id, t, cfg);
  }

  /** `update` of an entity, accepted or not, leaves the `entities` group and so `size` as they were. */
  lemma UpdateEntityKeepsSize(st: State, e: Entity, tid: Option<string>, ts: Option<int>, now: int, cfg: Config)
    ensures var r := Update(st, EntityDoc(e), tid, ts, now, cfg);
      GetZset(r.0, MembersKey(EntitiesGroup)) == GetZset(st, MembersKey(EntitiesGroup))
    ensures Size(Update(st, EntityDoc(e), tid, ts, now, cfg).0, now) == Size(st, now)
  {
    hide EntityUpdate, CollectionBranch, Readable, Expiration, Size, WellFormed;
    var id := if tid.Some? then tid.value else EntityId(e);
    var t := if ts.Some? then ts.value else now + FourDays;
    if Readable(e) {
      EntityUpdateKeepsEntities(st, e, id, t, cfg);
    }
    SameSize(Update(st, EntityDoc(e), tid, ts, now, cfg).0, st, now);
  }

  lemma SameSize(a: State, b: State, now: int)
    requires GetZset(a, MembersKey(EntitiesGroup)) == GetZset(b, MembersKey(EntitiesGroup))
    ensures Size(a, now) == Size(b, now)
  {
    assert ZsetOrEmpty(a, MembersKey(EntitiesGroup)) == ZsetOrEmpty(b, MembersKey(EntitiesGroup));
  }

  /**
   * After an entity update every (attribute, value) pair of the entity
   * has its group entry, its registration in `#collections` and its entry
   * in `<attr>#values`, at the entity's expiry, and every attribute name
   * is in `#attributes`.
   */
  lemma UpdateIndexesAttributes(st: State, e: Entity, tid: Option<string>, ts: Option<int>, now: int, cfg: Config)
    requires Readable(e)
    ensures var r := Update(st, EntityDoc(e), tid, ts, now, cfg);
      var id := if tid.Some? then tid.value else EntityId(e);
      var t := if ts.Some? then ts.value else now + FourDays;
      var d := EntityAttributeDict(e).value;
      && (forall i, v :: 0 <= i < |d| && v in d[i].1 ==> Indexed(r.0, PyStr(d[i].0), v, id, t))
      && (forall i :: 0 <= i < |d| ==> PyStr(d[i].0) in Attributes(r.0))
  {
    hide EntityUpdate, CollectionBranch, UpdateEntity, EntityAttributeDict, WellFormed, Readable, Expiration;
    var id := if tid.Some? then tid.value else EntityId(e);
    var t := if ts.Some? then ts.value else now + FourDays;
    EntityUpdateIndexes(st, e, id, t, cfg);
  }

  /** The role groups of an updated entity hold it, at its expiry. */
  lemma UpdateIndexesRoles(st: State, e: Entity, tid: Option<string>, ts: Option<int>, now: int, cfg: Config)
    requires Readable(e)
    ensures var r := Update(st, EntityDoc(e), tid, ts, now, cfg);
      var id := if tid.Some? then tid.value else EntityId(e);
      var t := if ts.Some? then ts.value else now + FourDays;
      && (IsIdp(e) ==> Scored(r.0, MembersKey(AttrGroup(RoleAttribute, "idp")), id, t))
      && (IsSp(e) ==> Scored(r.0, MembersKey(AttrGroup(RoleAttribute, "sp")), id, t))
  {
    hide EntityUpdate, CollectionBranch, UpdateEntity, Readable, Expiration;
    var id := if tid.Some? then tid.value else EntityId(e);
    var t := if ts.Some? then ts.value else now + FourDays;
    EntityUpdateIndexesRoles(st, e, id, t, cfg);
  }

  /** Only an entity or a collection is accepted; any other root raises ValueError and leaves the store as it was. */
  lemma UpdateRejectsOtherRoots(st: State, doc: Document, tid: Option<string>, ts: Option<int>, now: int, cfg: Config)
    ensures var r := Update(st, doc, tid, ts, now, cfg);
      r.1.Failure? && r.1.error.BadTopLevel? <==> doc.OtherDoc?
    ensures var r := Update(st, doc, tid, ts, now, cfg);
      doc.OtherDoc? ==> r.0 == st && r.1.error == BadTopLevel(doc.tag)
  {
    hide EntityBranch, CollectionBranch, Expiration, Readable, AllReadable, WellFormed;
  }

  /**
   * The expiry passed to `update` plays no part for a collection: the
   * collection and its entities expire when `_expiration` says.
   */
  lemma CollectionIgnoresGivenExpiry(st: State, c: Collection, tid: Option<string>, ts1: Option<int>, ts2: Option<int>, now: int, cfg: Config)
    ensures Update(st, CollectionDoc(c), tid, ts1, now, cfg) == Update(st, CollectionDoc(c), tid, ts2, now, cfg)
  {
    hide EntityBranch, CollectionBranch, Expiration;
  }

  /** The collection branch in its stages, for proofs that keep the definitions hidden. */
  lemma UpdateCollectionStep(st: State, c: Collection, tid: Option<string>, ts: Option<int>, now: int, cfg: Config)
    requires AllReadable(c.entities)
    ensures var id := if tid.Some? then tid.value else PyStr(AttrValue(c.attrs, "Name"));
      var cts := Expiration(cfg, c, now);
      var s1 := UpdateChildren(st, c.entities, cts, cfg);
      Update(st, CollectionDoc(c), tid, ts, now, cfg) ==
        (RegisterChildren(UpdateEntity(s1, c.attrs, c.xml, id, Some(cts)), id, c.entities, cts), Success(|c.entities|))
  {
    hide EntityBranch, UpdateChildren, UpdateEntity, RegisterChildren, Expiration, AllReadable;
  }

  /**
   * A collection document is written under the given id, or its `Name`,
   * expiring when `_expiration` says; it counts its entities, and each of
   * them joins the collection's group and `entities` at that expiry.
   */
  lemma UpdateCollectionGroups(st: State, c: Collection, tid: Option<string>, ts: Option<int>, now: int, cfg: Config)
    requires AllReadable(c.entities)
    ensures var r := Update(st, CollectionDoc(c), tid, ts, now, cfg);
      var id := if tid.Some? then tid.value else PyStr(AttrValue(c.attrs, "Name"));
      var cts := Expiration(cfg, c, now);
      && r.1 == Success(|c.entities|)
      && GetString(r.0, MetadataKey(id)) == Some(c.xml)
      && GetExpiry(r.0, MetadataKey(id)) == Some(cts)
      && (|c.entities| > 0 ==> id in Collections(r.0) && EntitiesGroup in Collections(r.0))
    ensures var r := Update(st, CollectionDoc(c), tid, ts, now, cfg);
      var id := if tid.Some? then tid.value else PyStr(AttrValue(c.attrs, "Name"));
      var cts := Expiration(cfg, c, now);
      forall i :: 0 <= i < |c.entities| ==>
        && Scored(r.0, MembersKey(id), EntityId(c.entities[i]), cts)
        && Scored(r.0, MembersKey(EntitiesGroup), EntityId(c.entities[i]), cts)
  {
    hide Update, UpdateChildren, UpdateEntity, RegisterChildren, Expiration, AllReadable;
    var id := if tid.Some? then tid.value else PyStr(AttrValue(c.attrs, "Name"));
    var cts := Expiration(cfg, c, now);
    var s1 := UpdateChildren(st, c.entities, cts, cfg);
    var s2 := UpdateEntity(s1, c.attrs, c.xml, id, Some(cts));
    UpdateCollectionStep(st, c, tid, ts, now, cfg);
    ChildrenJoinGroups(s2, id, c.entities, cts);
  }

  /**
   * The call at store.py:147 as written makes every collection update fail
   * with nothing stored, where the one-argument reading stores the
   * collection and reports its entities, or raises on an entity whose
   * attribute dictionary cannot be built.
   */
  lemma CollectionUpdateFailsAsWritten(st: State, c: Collection, tid: Option<string>, ts: Option<int>, now: int, cfg: Config)
    ensures UpdateAsWritten(st, CollectionDoc(c), tid, ts, now, cfg) == (st, Failure(ArityMismatch("_expiration")))
    ensures Update(st, CollectionDoc(c), tid, ts, now, cfg).1 ==
      if AllReadable(c.entities) then Success(|c.entities|) else Failure(MissingText)
  {
    UpdateOutcome(st, CollectionDoc(c), tid, ts, now, cfg);
  }

  /** The first entity of `es` whose attribute dictionary cannot be built is the `i`th. */
  predicate FirstUnreadable(es: seq<Entity>, i: int) {
    0 <= i < |es| && !Readable(es[i]) && AllReadable(es[..i])
  }

  /** The loop over the children stops at the first unreadable entity: only the ones before it are written. */
  lemma {:induction false} UpdateChildrenStops(st: State, es: seq<Entity>, ts: int, cfg: Config, i: int)
    requires FirstUnreadable(es, i)
    ensures UpdateChildren(st, es, ts, cfg) == UpdateChildren(st, es[..i], ts, cfg)
    decreases i
  {
    hide EntityUpdate, UpdateChildren, Readable;
    UpdateChildrenStep(st, es, ts, cfg);
    UpdateChildrenStep(st, es[..i], ts, cfg);
    if i > 0 {
      assert Readable(es[..i][0]);
      assert es[..i][1..] == es[1..][..i - 1];
      var tail := es[1..][..i - 1];
      forall j | 0 <= j < |tail| ensures Readable(tail[j]) {
        assert tail[j] == es[..i][j + 1];
      }
      assert FirstUnreadable(es[1..], i - 1);
      UpdateChildrenStops(EntityUpdate(st, es[0], EntityId(es[0]), ts, cfg), es[1..], ts, cfg, i - 1);
    }
  }

  /**
   * A collection whose `i`th entity is the first that cannot be read
   * raises AttributeError: the entities before it are written, each in
   * its own batch, and the collection's own batch is discarded.
   */
  lemma UpdateCollectionStopsAtUnreadable(st: State, c: Collection, tid: Option<string>, ts: Option<int>, now: int, cfg: Config, i: int)
    requires FirstUnreadable(c.entities, i)
    ensures Update(st, CollectionDoc(c), tid, ts, now, cfg) ==
      (UpdateChildren(st, c.entities[..i], Expiration(cfg, c, now), cfg), Failure(MissingText))
  {
    hide EntityBranch, UpdateChildren, Expiration, Readable, WellFormed, CollectionBatch;
    UpdateChildrenStops(st, c.entities, Expiration(cfg, c, now), cfg, i);
  }

  /**
   * Each entity of a collection has its document stored, unless a later
   * entity has the same id or the collection's own id is that id.
   */
  lemma UpdateCollectionEntities(st: State, c: Collection, tid: Option<string>, ts: Option<int>, now: int, cfg: Config)
    requires AllReadable(c.entities)
    ensures var r := Update(st, CollectionDoc(c), tid, ts, now, cfg);
      var id := if tid.Some? then tid.value else PyStr(AttrValue(c.attrs, "Name"));
      forall i :: 0 <= i < |c.entities| && LastWithId(c.entities, i) && EntityId(c.entities[i]) != id ==>
        GetString(r.0, MetadataKey(EntityId(c.entities[i]))) == Some(c.entities[i].xml)
  {
    hide Update, UpdateChildren, UpdateEntity, RegisterChildren, Expiration, AllReadable;
    var id := if tid.Some? then tid.value else PyStr(AttrValue(c.attrs, "Name"));
    var cts := Expiration(cfg, c, now);
    UpdateCollectionStep(st, c, tid, ts, now, cfg);
    ChildrenDocuments(st, c.entities, cts, cfg);
    var s1 := UpdateChildren(st, c.entities, cts, cfg);
    var s2 := UpdateEntity(s1, c.attrs, c.xml, id, Some(cts));
    forall x | x != id ensures GetString(s2, MetadataKey(x)) == GetString(s1, MetadataKey(x)) {
      SuffixInjective(x, id, "#metadata");
    }
  }

  /**
   * For an attribute other than the role, the values the entity is
   * indexed under are the stripped values of the last `EntityAttributes`
   * block whose first `Attribute` carries that name.
   */
  lemma EntityUpdateIndexesLastBlock(st: State, e: Entity, tid: string, ts: int, cfg: Config, k: AttrKey, i: int)
    requires Readable(e)
    requires k != Some(RoleAttribute)
    requires Names(e.blocks, i, k)
    requires forall j :: i < j < |e.blocks| ==> !Names(e.blocks, j, k)
    ensures var r := EntityUpdate(st, e, tid, ts, cfg);
      forall v :: v in StripAll(e.blocks[i][0].values) ==> Indexed(r, PyStr(k), v, tid, ts)
  {
    hide EntityUpdate, UpdateEntity, IndexAttributes, RegisterAliases, EntityAttributeDict, BlocksDict, StripAll;
    var d := EntityAttributeDict(e).value;
    var vs := StripAll(e.blocks[i][0].values);
    DictFollowsLastBlock(e.blocks, k, i);
    assert DictGet(d, k) == Some(vs);
    EntityUpdateIndexes(st, e, tid, ts, cfg);
    var j :| 0 <= j < |d| && d[j] == (k, vs);
  }

  // ---------------------------------------------------------------------
  // `lookup` after `update`

  lemma HexHasNoPlus(s: string)
    requires IsHex(s)
    ensures '+' !in s
  {
  }

  /**
   * Looking an entity up by the id it was written under, before its
   * expiry, gives its document back, unless an alias key named after that
   * id exists.  An id with `+` in it always takes the composite branch,
   * so it is never found this way.
   */
  lemma LookupAfterUpdate(st: State, e: Entity, id: string, ts: Option<int>, now: int, cfg: Config, fuel: nat)
    requires Readable(e)
    requires ts.None? || ts.value > now
    requires fuel >= 1 && '+' !in id
    ensures var s := Update(st, EntityDoc(e), Some(id), ts, now, cfg).0;
      !Exists(s, AliasKey(id)) ==> Lookup(s, id, now, cfg, fuel) == (s, Success(Document(e.xml)))
  {
    hide Update, Members, Readable;
    UpdateEntityDocument(st, e, Some(id), ts, now, cfg);
  }

  /**
   * With real hex digests, looking up an alias of an updated entity
   * resolves, one level deeper, exactly as looking up its id does.
   */
  lemma AliasLookupAfterUpdate(st: State, e: Entity, id: string, ts: Option<int>, now: int, cfg: Config, fuel: nat)
    requires Readable(e)
    requires ValidConfig(cfg)
    ensures var s := Update(st, EntityDoc(e), Some(id), ts, now, cfg).0;
      forall h :: h in AliasHashes ==> Lookup(s, AliasName(cfg, h, id), now, cfg, fuel + 1) == Lookup(s, id, now, cfg, fuel)
  {
    hide EntityUpdate, CollectionBranch, UpdateEntity, Lookup, Members, Readable, Expiration;
    var t := if ts.Some? then ts.value else now + FourDays;
    var s := Update(st, EntityDoc(e), Some(id), ts, now, cfg).0;
    assert s == EntityUpdate(st, e, id, t, cfg);
    EntityUpdateAliases(st, e, id, t, cfg);
    forall h | h in AliasHashes ensures Lookup(s, AliasName(cfg, h, id), now, cfg, fuel + 1) == Lookup(s, id, now, cfg, fuel) {
      var name := AliasName(cfg, h, id);
      HexHasNoPlus(cfg.hexDigest(id, h));
      assert '+' !in name;
      assert GetString(s, AliasKey(name)) == Some(id);
      LookupResolutionOrder(s, name, now, cfg, fuel);
    }
  }

  /** A key whose name is longer than the only key a state change touches exists before it iff after it. */
  lemma ExistsUnchanged(a: State, b: State, touched: string, k: string)
    requires a.strings == b.strings && a.hashes == b.hashes && a.sets == b.sets
    requires forall j :: j != touched ==> GetZset(b, j) == GetZset(a, j)
    requires |k| > |touched|
    ensures Exists(b, k) == Exists(a, k)
  {
    assert GetZset(b, k) == GetZset(a, k);
  }

  /**
   * `lookup` resolves in a fixed order, each branch taken only when every
   * earlier one does not apply: a key with `+` through the digest of the
   * key, after the composite cache is written; an existing alias through
   * the id it names; an existing document as that document; otherwise
   * the key as a group.
   */
  lemma LookupResolutionOrder(st: State, key: string, now: int, cfg: Config, fuel: nat)
    ensures '+' in key ==>
      Lookup(st, key, now, cfg, fuel + 1) == Lookup(CompositeCache(st, key, now, cfg), cfg.compositeDigest(key), now, cfg, fuel)
    ensures '+' !in key && Exists(st, AliasKey(key)) && GetString(st, AliasKey(key)).Some? ==>
      Lookup(st, key, now, cfg, fuel + 1) == Lookup(st, GetString(st, AliasKey(key)).value, now, cfg, fuel)
    ensures '+' !in key && !Exists(st, AliasKey(key)) && GetString(st, MetadataKey(key)).Some? ==>
      Lookup(st, key, now, cfg, fuel + 1) == (st, Success(Document(GetString(st, MetadataKey(key)).value)))
    ensures '+' !in key && !Exists(st, AliasKey(key)) && !Exists(st, MetadataKey(key)) ==>
      Lookup(st, key, now, cfg, fuel + 1) == Members(st, key, now, cfg, fuel)
  {
    hide CompositeCache, Members, WellFormed, IndexUntouched;
  }

  /**
   * A key with `+` and no cached result: the intersection of the parts'
   * groups is stored under the digest `hk` with a 30-second lifetime, but
   * the lookup of `hk` that follows reads `<hk>#members`, which the
   * intersection did not create, and so finds an empty group.
   */
  lemma CompositeLookupFindsNothing(st: State, key: string, now: int, cfg: Config, fuel: nat)
    requires ValidConfig(cfg) && '+' in key && fuel >= 2
    requires var hk := cfg.compositeDigest(key);
      !Exists(st, MembersKey(hk)) && !Exists(st, AliasKey(hk)) && !Exists(st, MetadataKey(hk))
    ensures var r := Lookup(st, key, now, cfg, fuel);
      var hk := cfg.compositeDigest(key);
      var inter := Inter(Sources(st, CompositeSources(key)));
      && r.1 == Success(Group([]))
      && GetZset(r.0, hk) == (if inter == map[] then None else Some(inter))
      && (inter != map[] ==> GetExpiry(r.0, hk) == Some(now + CompositeWindow))
  {
    hide *;
    CompositeLookupReadsEmptyGroup(st, key, now, cfg, fuel);
  }

  /** The lookup of the digest finds neither an alias, a document nor a group. */
  lemma CompositeLookupReadsEmptyGroup(st: State, key: string, now: int, cfg: Config, fuel: nat)
    requires ValidConfig(cfg) && '+' in key && fuel >= 2
    requires var hk := cfg.compositeDigest(key);
      !Exists(st, MembersKey(hk)) && !Exists(st, AliasKey(hk)) && !Exists(st, MetadataKey(hk))
    ensures Lookup(st, key, now, cfg, fuel) == (CompositeCache(st, key, now, cfg), Success(Group([])))
  {
    hide Lookup, Members, Inter, Sources, CompositeCache, CompositeSources, Exists, Split, IndexUntouched, WellFormed, Fresh, ZsetOrEmpty;
    var hk := cfg.compositeDigest(key);
    var s1 := CompositeCache(st, key, now, cfg);
    HexHasNoPlus(hk);
    ExistsUnchanged(st, s1, hk, AliasKey(hk));
    ExistsUnchanged(st, s1, hk, MetadataKey(hk));
    ExistsUnchanged(st, s1, hk, MembersKey(hk));
    LookupResolutionOrder(st, key, now, cfg, fuel - 1);
    LookupResolutionOrder(s1, hk, now, cfg, fuel - 2);
  }

  /** The state in which the list comprehension of `members` looks up `ids[i]`: the one the lookups before it left. */
  function Threaded(st: State, ids: seq<string>, now: int, cfg: Config, fuel: nat, i: nat): State
    requires i <= |ids|
  {
    if i == 0 then st else Lookup(Threaded(st, ids, now, cfg, fuel, i - 1), ids[i - 1], now, cfg, fuel).0
  }

  /** The lookup of `ids[i]` in its turn. */
  function LookupAt(st: State, ids: seq<string>, now: int, cfg: Config, fuel: nat, i: nat): (State, Result<Found, StoreError>)
    requires i < |ids|
  {
    Lookup(Threaded(st, ids, now, cfg, fuel, i), ids[i], now, cfg, fuel)
  }

  /**
   * The list comprehension stops at the `j`th lookup: every lookup before
   * it succeeds, and its error and state are the result.
   */
  predicate StopsAt(st: State, ids: seq<string>, now: int, cfg: Config, fuel: nat, j: int, r: (State, Result<seq<Found>, StoreError>)) {
    && 0 <= j < |ids|
    && (forall i :: 0 <= i < j ==> LookupAt(st, ids, now, cfg, fuel, i).1.Success?)
    && LookupAt(st, ids, now, cfg, fuel, j).1.Failure?
    && r.0 == LookupAt(st, ids, now, cfg, fuel, j).0
    && r.1 == Failure(LookupAt(st, ids, now, cfg, fuel, j).1.error)
  }

  /** Threading from the state after the first lookup is threading over the rest of the list. */
  lemma {:induction false} ThreadedShift(st: State, ids: seq<string>, now: int, cfg: Config, fuel: nat, i: nat)
    requires 0 < |ids| && i < |ids|
    ensures Threaded(st, ids, now, cfg, fuel, i + 1) ==
      Threaded(Lookup(st, ids[0], now, cfg, fuel).0, ids[1..], now, cfg, fuel, i)
    decreases i
  {
    hide Lookup;
    if i > 0 {
      ThreadedShift(st, ids, now, cfg, fuel, i - 1);
      assert ids[i] == ids[1..][i - 1];
    }
  }

  /**
   * The list comprehension of `members` looks each id up in turn, in the
   * state the lookups before it left: it succeeds exactly when every
   * lookup does, and then its `i`th item is the result of the `i`th
   * lookup and its state the one the last lookup left.  Otherwise it
   * stops with the error, and the state, of the first lookup that fails.
   */
  lemma {:induction false} LookupEachPointwise(st: State, ids: seq<string>, now: int, cfg: Config, fuel: nat)
    ensures var r := LookupEach(st, ids, now, cfg, fuel);
      r.1.Success? <==> forall i :: 0 <= i < |ids| ==> LookupAt(st, ids, now, cfg, fuel, i).1.Success?
    ensures var r := LookupEach(st, ids, now, cfg, fuel);
      r.1.Success? ==>
        && r.0 == Threaded(st, ids, now, cfg, fuel, |ids|)
        && forall i :: 0 <= i < |ids| ==> r.1.value[i] == LookupAt(st, ids, now, cfg, fuel, i).1.value
    ensures var r := LookupEach(st, ids, now, cfg, fuel);
      r.1.Failure? ==> exists j :: StopsAt(st, ids, now, cfg, fuel, j, r)
    decreases |ids|
  {
    hide Lookup, WellFormed, IndexUntouched;
    if |ids| > 0 {
      var first := Lookup(st, ids[0], now, cfg, fuel);
      var rest := ids[1..];
      LookupEachPointwise(first.0, rest, now, cfg, fuel);
      assert LookupAt(st, ids, now, cfg, fuel, 0) == first;
      forall i | 0 <= i < |rest|
        ensures LookupAt(st, ids, now, cfg, fuel, i + 1) == LookupAt(first.0, rest, now, cfg, fuel, i)
      {
        ThreadedShift(st, ids, now, cfg, fuel, i);
        assert ids[i + 1] == rest[i];
      }
      if |rest| > 0 {
        ThreadedShift(st, ids, now, cfg, fuel, |rest|);
      } else {
        assert Threaded(st, ids, now, cfg, fuel, 1) == first.0;
      }
      var r := LookupEach(st, ids, now, cfg, fuel);
      if first.1.Failure? {
        assert r == (first.0, Failure(first.1.error));
        assert StopsAt(st, ids, now, cfg, fuel, 0, r);
      } else {
        var rr := LookupEach(first.0, rest, now, cfg, fuel);
        assert r.0 == rr.0;
        assert r.1.Success? <==> rr.1.Success?;
        if rr.1.Success? {
          assert r.1.value == [first.1.value] + rr.1.value;
          forall i | 0 <= i < |ids| ensures LookupAt(st, ids, now, cfg, fuel, i).1.Success? {
            if i > 0 {
              assert LookupAt(st, ids, now, cfg, fuel, i) == LookupAt(first.0, rest, now, cfg, fuel, i - 1);
            }
          }
        } else {
          var j :| StopsAt(first.0, rest, now, cfg, fuel, j, rr);
          forall i | 0 <= i < j + 1 ensures LookupAt(st, ids, now, cfg, fuel, i).1.Success? {
            if i > 0 {
              assert LookupAt(st, ids, now, cfg, fuel, i) == LookupAt(first.0, rest, now, cfg, fuel, i - 1);
            }
          }
          assert StopsAt(st, ids, now, cfg, fuel, j + 1, r);
        }
      }
    }
  }

  /**
   * `members(k)` of a sorted set lists, in expiry order, the lookups of the
   * members whose expiry has not passed, each in its turn.
   */
  lemma MembersPointwise(st: State, k: string, now: int, cfg: Config, fuel: nat)
    requires GetZset(st, MembersKey(k)).Some?
    ensures var r := Members(st, k, now, cfg, fuel); var ids := ZRangeByScore(st, MembersKey(k), now);
      && (r.1.Success? <==> forall i :: 0 <= i < |ids| ==> LookupAt(st, ids, now, cfg, fuel, i).1.Success?)
      && (r.1.Success? ==> forall i :: 0 <= i < |ids| ==> r.1.value.items[i] == LookupAt(st, ids, now, cfg, fuel, i).1.value)
  {
    hide LookupEach, LookupAt, ZRangeByScore, WellFormed, IndexUntouched;
    LookupEachPointwise(st, ZRangeByScore(st, MembersKey(k), now), now, cfg, fuel);
  }

  /** Looking up, in turn, ids that each name a document gives those documents and changes nothing. */
  lemma {:induction false} LookupEachDocuments(st: State, ids: seq<string>, now: int, cfg: Config, fuel: nat)
    requires fuel >= 1
    requires forall i :: 0 <= i < |ids| ==>
      '+' !in ids[i] && !Exists(st, AliasKey(ids[i])) && MetadataKey(ids[i]) in st.strings
    ensures var r := LookupEach(st, ids, now, cfg, fuel);
      && r.0 == st && r.1.Success? && |r.1.value| == |ids|
      && forall i :: 0 <= i < |ids| ==> r.1.value[i] == Document(st.strings[MetadataKey(ids[i])])
    decreases |ids|
  {
    hide Lookup, Members, WellFormed, IndexUntouched;
    if |ids| > 0 {
      LookupResolutionOrder(st, ids[0], now, cfg, fuel - 1);
      LookupEachDocuments(st, ids[1..], now, cfg, fuel);
      assert forall i :: 1 <= i < |ids| ==> ids[i] == ids[1..][i - 1];
    }
  }

  /**
   * When every unexpired member of a group names a document, `members`
   * gives exactly those documents, in expiry order.
   */
  lemma MembersOfDocuments(st: State, k: string, now: int, cfg: Config, fuel: nat)
    requires fuel >= 1
    requires GetZset(st, MembersKey(k)).Some? || !Exists(st, MembersKey(k))
    requires forall m :: InZset(st, MembersKey(k), m) && st.zsets[MembersKey(k)][m] >= now ==>
      '+' !in m && !Exists(st, AliasKey(m)) && MetadataKey(m) in st.strings
    ensures var r := Members(st, k, now, cfg, fuel); var ids := ZRangeByScore(st, MembersKey(k), now);
      && r.0 == st && r.1.Success? && r.1.value.Group? && |r.1.value.items| == |ids|
      && forall i :: 0 <= i < |ids| ==> r.1.value.items[i] == Document(st.strings[MetadataKey(ids[i])])
  {
    hide Lookup, LookupEach, WellFormed, IndexUntouched, ZRangeByScore;
    var ids := ZRangeByScore(st, MembersKey(k), now);
    assert forall i :: 0 <= i < |ids| ==> ids[i] in ids;
    LookupEachDocuments(st, ids, now, cfg, fuel);
  }

  /** A value indexed with an expiry not yet passed is listed by `attribute`. */
  lemma AttributeAfterEntityUpdate(st: State, e: Entity, tid: string, ts: int, now: int, cfg: Config)
    requires Readable(e)
    requires ts >= now
    ensures var r := EntityUpdate(st, e, tid, ts, cfg); var d := EntityAttributeDict(e).value;
      forall i, v :: 0 <= i < |d| && v in d[i].1 ==> v in Attribute(r, PyStr(d[i].0), now)
  {
    hide EntityUpdate, EntityAttributeDict, WellFormed, ZRangeByScore, Readable;
    EntityUpdateIndexes(st, e, tid, ts, cfg);
  }

  /**
   * Once a collection with at least one entity is written with an expiry
   * not yet passed, each of its entities is counted by `size`.
   */
  lemma SizeAfterCollectionUpdate(st: State, c: Collection, tid: Option<string>, ts: Option<int>, now: int, cfg: Config)
    requires AllReadable(c.entities)
    requires Expiration(cfg, c, now) >= now
    ensures var r := Update(st, CollectionDoc(c), tid, ts, now, cfg);
      forall i :: 0 <= i < |c.entities| ==> EntityId(c.entities[i]) in ZRangeByScore(r.0, MembersKey(EntitiesGroup), now)
    ensures var r := Update(st, CollectionDoc(c), tid, ts, now, cfg);
      |c.entities| > 0 ==> Size(r.0, now) > 0
  {
    hide Update, Expiration, WellFormed, Fresh, AllReadable;
    UpdateCollectionGroups(st, c, tid, ts, now, cfg);
    var r := Update(st, CollectionDoc(c), tid, ts, now, cfg);
    var ids := ZRangeByScore(r.0, MembersKey(EntitiesGroup), now);
    if |c.entities| > 0 {
      assert EntityId(c.entities[0]) in ids;
      assert |ids| > 0;
    }
  }

  /** `get(key)` after `set(key, mapping)` reads the old fields overridden by the mapping; every other hash reads as before. */
  lemma SetThenGet(st: State, key: string, mapping: map<string, string>)
    requires mapping != map[]
    ensures var r := SetHash(st, key, mapping);
      && r.Success?
      && GetHashAll(r.value, key) == GetHashAll(st, key) + mapping
      && forall k :: k != key ==> GetHashAll(r.value, k) == GetHashAll(st, k)
  {
  }

  // ---------------------------------------------------------------------
  // `periodic`

  lemma SameMembers(a: State, b: State, k: string)
    requires GetSet(a, k) == GetSet(b, k)
    ensures SMembers(a, k) == SMembers(b, k)
  {
  }

  lemma SameCard(a: State, b: State, k: string)
    requires GetZset(a, k) == GetZset(b, k)
    ensures ZCard(a, k) == ZCard(b, k)
  {
  }

  /** A group's `#members` key is never one of the keys `periodic` treats specially, unless the group is named so. */
  lemma MembersKeyOf(c: string)
    ensures MembersKey(c) != LiteralValues
    ensures MembersKey(c) == LiteralMembers ==> c == "%s"
    ensures MembersKey(c) == MembersKey(EntitiesGroup) ==> c == EntitiesGroup
  {
    var k := MembersKey(c);
    assert k[|k| - 3] != LiteralValues[|LiteralValues| - 3];
    SuffixInjective(c, EntitiesGroup, "#members");
    SuffixInjective(c, "%s", "#members");
  }

  /** The stages of `periodic`: expired entities go, then the collection loop, then the attribute loop. */
  lemma PeriodicStages(st: State, now: int)
    ensures Periodic(st, now) == PruneAttributes(PruneCollections(ZRemRangeByScore(st, MembersKey(EntitiesGroup), now), now), now)
    ensures MembersKey(EntitiesGroup) != LiteralMembers && MembersKey(EntitiesGroup) != LiteralValues
    ensures LiteralMembers != LiteralValues && CollectionsKey != AttributesKey
  {
    hide ZRemRangeByScore, PruneCollections, PruneAttributes, WellFormed;
  }

  /** `periodic` keeps exactly the members of `entities` whose expiry lies after `now`, with their expiries. */
  lemma PeriodicPrunesEntities(st: State, now: int)
    ensures var r := Periodic(st, now); var g := MembersKey(EntitiesGroup);
      forall m :: InZset(r, g, m) <==> InZset(st, g, m) && st.zsets[g][m] > now
    ensures var r := Periodic(st, now); var g := MembersKey(EntitiesGroup);
      forall m :: InZset(r, g, m) ==> r.zsets[g][m] == st.zsets[g][m]
  {
    hide ZRemRangeByScore, PruneCollections, PruneAttributes, WellFormed, Periodic;
    PeriodicStages(st, now);
    var g := MembersKey(EntitiesGroup);
    var s1 := ZRemRangeByScore(st, g, now);
    var r := Periodic(st, now);
    assert GetZset(r, g) == GetZset(s1, g);
  }

  /**
   * Apart from `entities` and the two literal keys `%s#members` and
   * `%s#values`, `periodic` leaves every sorted set as it was: no other
   * group and no `<attr>#values` loses an expired member.
   */
  lemma PeriodicKeepsOtherGroups(st: State, now: int)
    ensures var r := Periodic(st, now);
      forall k :: k != MembersKey(EntitiesGroup) && k != LiteralMembers && k != LiteralValues ==> GetZset(r, k) == GetZset(st, k)
  {
    hide *;
    PeriodicStages(st, now);
  }

  /**
   * A group name other than `entities` and `%s` stays registered exactly
   * when it was registered and its group has a member: since the group
   * itself is not pruned, an entry whose expiry has passed still keeps
   * the name.
   */
  lemma PeriodicDropsEmptyCollections(st: State, now: int)
    ensures var r := Periodic(st, now);
      forall c :: c != EntitiesGroup && c != "%s" ==>
        (c in Collections(r) <==> c in Collections(st) && ZCard(st, MembersKey(c)) > 0)
  {
    hide ZRemRangeByScore, PruneCollections, PruneAttributes, WellFormed, Periodic, ZCard, SMembers, MembersKey;
    PeriodicStages(st, now);
    var s1 := ZRemRangeByScore(st, MembersKey(EntitiesGroup), now);
    var s2 := PruneCollections(s1, now);
    var r := Periodic(st, now);
    SameMembers(r, s2, CollectionsKey);
    SameMembers(s1, st, CollectionsKey);
    forall c | c != EntitiesGroup && c != "%s" ensures ZCard(s2, MembersKey(c)) == ZCard(st, MembersKey(c)) {
      MembersKeyOf(c);
      SameCard(s2, st, MembersKey(c));
    }
  }

  /**
   * A name other than `entities` and `%s` stays in `#attributes` exactly
   * when it was there and `<name>#members` has a member.  The test reads
   * `<name>#members`, the group of that name, and not `<name>#values`,
   * the sorted set that lists the attribute's values.
   */
  lemma PeriodicDropsAttributes(st: State, now: int)
    ensures var r := Periodic(st, now);
      forall a :: a != EntitiesGroup && a != "%s" ==>
        (a in Attributes(r) <==> a in Attributes(st) && ZCard(st, MembersKey(a)) > 0)
  {
    hide ZRemRangeByScore, PruneCollections, PruneAttributes, WellFormed, Periodic, ZCard, SMembers, MembersKey;
    PeriodicStages(st, now);
    var s1 := ZRemRangeByScore(st, MembersKey(EntitiesGroup), now);
    var s2 := PruneCollections(s1, now);
    var r := Periodic(st, now);
    SameMembers(s2, st, AttributesKey);
    forall a | a != EntitiesGroup && a != "%s" ensures ZCard(r, MembersKey(a)) == ZCard(st, MembersKey(a)) {
      MembersKeyOf(a);
      SameCard(r, st, MembersKey(a));
    }
  }

  /**
   * A member of `entities` expiring exactly at `now` is still counted by
   * readers at `now`, whose range includes its bound, while `periodic`
   * at `now` removes it, its range including the bound too.
   */
  lemma ExpiringNowIsFreshButPruned(st: State, m: string, now: int)
    requires Scored(st, MembersKey(EntitiesGroup), m, now)
    ensures m in ZRangeByScore(st, MembersKey(EntitiesGroup), now)
    ensures !InZset(Periodic(st, now), MembersKey(EntitiesGroup), m)
  {
    hide Periodic, WellFormed;
    PeriodicPrunesEntities(st, now);
  }

  /**
   * Running `periodic` a second time at the same instant changes no
   * sorted set: what the first run left holds nothing left to prune.
   */
  lemma PeriodicIdempotentOnGroups(st: State, now: int)
    ensures var r1 := Periodic(st, now); var r2 := Periodic(r1, now);
      forall k :: GetZset(r2, k) == GetZset(r1, k)
  {
    hide *;
    var r1 := Periodic(st, now);
    var r2 := Periodic(r1, now);
    PeriodicPrunesLiteralMembersOnce(st, now);
    PeriodicPrunesLiteralValuesOnce(st, now);
    PeriodicKeepsOtherGroups(r1, now);
    PeriodicPrunesEntitiesOnce(st, now);
  }

  /** The second run leaves `entities` as the first left it. */
  lemma PeriodicPrunesEntitiesOnce(st: State, now: int)
    ensures var r1 := Periodic(st, now); var r2 := Periodic(r1, now);
      GetZset(r2, MembersKey(EntitiesGroup)) == GetZset(r1, MembersKey(EntitiesGroup))
  {
    hide ZRemRangeByScore, PruneCollections, PruneAttributes, WellFormed, Periodic;
    PeriodicStages(st, now);
    var r1 := Periodic(st, now);
    PeriodicStages(r1, now);
    ZRemRangeByScoreAgain(st, r1, MembersKey(EntitiesGroup), now);
  }

  /** The second run leaves `%s#members` as the first left it. */
  lemma PeriodicPrunesLiteralMembersOnce(st: State, now: int)
    ensures var r1 := Periodic(st, now); var r2 := Periodic(r1, now);
      GetZset(r2, LiteralMembers) == GetZset(r1, LiteralMembers)
  {
    hide ZRemRangeByScore, PruneCollections, PruneAttributes, WellFormed, Periodic, SMembers;
    var g := MembersKey(EntitiesGroup);
    PeriodicStages(st, now);
    var a1 := ZRemRangeByScore(st, g, now);
    var b1 := PruneCollections(a1, now);
    var r1 := PruneAttributes(b1, now);
    PeriodicStages(r1, now);
    var a2 := ZRemRangeByScore(r1, g, now);
    SameMembers(r1, b1, CollectionsKey);
    SameMembers(a2, r1, CollectionsKey);
    if SMembers(a2, CollectionsKey) != {} {
      assert SMembers(a1, CollectionsKey) != {};
      ZRemRangeByScoreAgain(a1, a2, LiteralMembers, now);
    }
  }

  /** The second run leaves `%s#values` as the first left it. */
  lemma PeriodicPrunesLiteralValuesOnce(st: State, now: int)
    ensures var r1 := Periodic(st, now); var r2 := Periodic(r1, now);
      GetZset(r2, LiteralValues) == GetZset(r1, LiteralValues)
  {
    hide ZRemRangeByScore, PruneCollections, PruneAttributes, WellFormed, Periodic, SMembers;
    var g := MembersKey(EntitiesGroup);
    PeriodicStages(st, now);
    var b1 := PruneCollections(ZRemRangeByScore(st, g, now), now);
    var r1 := PruneAttributes(b1, now);
    PeriodicStages(r1, now);
    var a2 := ZRemRangeByScore(r1, g, now);
    var b2 := PruneCollections(a2, now);
    SameMembers(b2, a2, AttributesKey);
    SameMembers(a2, r1, AttributesKey);
    if SMembers(b2, AttributesKey) != {} {
      assert SMembers(b1, AttributesKey) != {};
      ZRemRangeByScoreAgain(b1, b2, LiteralValues, now);
    }
  }

  /** Running `periodic` a second time at the same instant drops no further name from `#collections`. */
  lemma PeriodicIdempotentOnCollections(st: State, now: int)
    ensures var r1 := Periodic(st, now); Collections(Periodic(r1, now)) == Collections(r1)
  {
    hide ZRemRangeByScore, PruneCollections, PruneAttributes, WellFormed, Periodic, SMembers, ZCard, MembersKey;
    var g := MembersKey(EntitiesGroup);
    PeriodicStages(st, now);
    var b1 := PruneCollections(ZRemRangeByScore(st, g, now), now);
    var r1 := PruneAttributes(b1, now);
    PeriodicStages(r1, now);
    var a2 := ZRemRangeByScore(r1, g, now);
    var b2 := PruneCollections(a2, now);
    var r2 := PruneAttributes(b2, now);
    PeriodicIdempotentOnGroups(st, now);
    SameMembers(r1, b1, CollectionsKey);
    SameMembers(a2, r1, CollectionsKey);
    SameMembers(r2, b2, CollectionsKey);
    forall c | c in SMembers(r1, CollectionsKey) ensures ZCard(b2, MembersKey(c)) > 0 {
      var k := MembersKey(c);
      MembersKeyOf(c);
      assert GetZset(b1, k) == GetZset(r1, k);
      assert GetZset(r2, k) == GetZset(b2, k);
      SameCard(b1, b2, k);
    }
  }

  /** Running `periodic` a second time at the same instant drops no further name from `#attributes`. */
  lemma PeriodicIdempotentOnAttributes(st: State, now: int)
    ensures var r1 := Periodic(st, now); Attributes(Periodic(r1, now)) == Attributes(r1)
  {
    hide ZRemRangeByScore, PruneCollections, PruneAttributes, WellFormed, Periodic, SMembers, ZCard, MembersKey;
    var g := MembersKey(EntitiesGroup);
    PeriodicStages(st, now);
    var b1 := PruneCollections(ZRemRangeByScore(st, g, now), now);
    var r1 := PruneAttributes(b1, now);
    PeriodicStages(r1, now);
    var b2 := PruneCollections(ZRemRangeByScore(r1, g, now), now);
    var r2 := PruneAttributes(b2, now);
    PeriodicIdempotentOnGroups(st, now);
    SameMembers(b2, r1, AttributesKey);
    forall a | a in SMembers(r1, AttributesKey) ensures ZCard(r2, MembersKey(a)) > 0 {
      SameCard(r1, r2, MembersKey(a));
    }
  }
}

=== FILE: store.dfy ===
/**
 * `RedisStore`: the metadata index store over the key/value state of
 * module KeyStore.  Every operation is a pure function of the state and,
 * where the store reads the clock, of `now` (epoch seconds).
 *
 * Key layout:
 *   <id>#metadata           string  serialized document
 *   <id>                    hash    root attributes plus `expires`
 *   <group>#members         zset    member id -> expiry instant
 *   <attr>#values           zset    attribute value -> expiry instant
 *   {<attr>}<value>         group   of the entities carrying that value
 *   {<hash>}<digest>#alias  string  the id the digest stands for
 *   #collections            set     every group name ever joined
 *   #attributes             set     every attribute name seen
 */
module MetadataStore {
  import opened Wrappers
  import opened Text
  import opened KeyStore
  import opened Documents

  datatype HashName = Sha1 | Sha256 | Md5

  function HashLabel(h: HashName): string {
    match h
    case Sha1 => "sha1"
    case Sha256 => "sha256"
    case Md5 => "md5"
  }

  /** The digests an entity is aliased by, in the order they are written. */
  const AliasHashes: seq<HashName> := [Sha1, Sha256, Md5]

  /**
   * The store's settings and the digest it uses.  `hexDigest(s, h)` is
   * `hex_digest(s, h)`; `compositeDigest(s)` is `hex_digest(s)` with its
   * default hash.  pyff.utils is not part of this model, so both are
   * parameters.
   */
  datatype Config = Config(
    defaultTtl: int,
    respectValidity: bool,
    hexDigest: (string, HashName) -> string,
    compositeDigest: string -> string)

  predicate IsHex(s: string) {
    forall i :: 0 <= i < |s| ==> s[i] in "0123456789abcdef"
  }

  /** A hex digest is made of lower-case hex digits only. */
  ghost predicate ValidConfig(cfg: Config) {
    && (forall s, h :: IsHex(cfg.hexDigest(s, h)))
    && (forall s :: IsHex(cfg.compositeDigest(s)))
  }

  datatype StoreError =
    | BadTopLevel(tag: string)  // ValueError: neither EntityDescriptor nor EntitiesDescriptor
    | WrongKind(key: string)    // WRONGTYPE: GET or ZRANGEBYSCORE of a key that holds another kind of value
    | RecursionLimit            // Python's recursion limit, modelled by fuel
    | EmptyMapping              // HMSET with no fields
    | ArityMismatch(name: string) // TypeError: a method called with too many arguments
    | MissingText               // AttributeError: `strip` of the None text of an AttributeValue

  /** The expiry `update` uses when none is given: four days, whatever `default_ttl` says. */
  const FourDays := 3600 * 24 * 4
  /** Lifetime of a cached composite intersection. */
  const CompositeWindow := 30

  const CollectionsKey := "#collections"
  const AttributesKey := "#attributes"
  const EntitiesGroup := "entities"

  function MetadataKey(id: string): string { id + "#metadata" }
  function MembersKey(g: string): string { g + "#members" }
  function ValuesKey(a: string): string { a + "#values" }
  function AliasKey(k: string): string { k + "#alias" }

  /** The group of the entities whose attribute `a` has value `v`. */
  function AttrGroup(a: string, v: string): string { "{" + a + "}" + v }

  /** The lookup key standing for `tid` under hash `h`. */
  function AliasName(cfg: Config, h: HashName, tid: string): string {
    "{" + HashLabel(h) + "}" + cfg.hexDigest(tid, h)
  }

  /** `str(ts)` as redis-py stores the `expires` field. */
  function ShowTs(ts: Option<int>): string {
    match ts
    case Some(t) => ShowInt(t)
    case None => "None"
  }

  // ---------------------------------------------------------------------
  // Expiration

  /**
   * `_expiration(relt)`: now plus the default lifetime, unless validity is
   * respected; then a parsed `validUntil` replaces it, and a parsed
   * `cacheDuration`, evaluated afterwards, replaces that in turn.
   * The caller at store.py:147 passes a second argument that this
   * one-argument definition does not take; the model reads the call as
   * `_expiration(relt)`, so an explicit expiry never reaches it.
   */
  function Expiration(cfg: Config, c: Collection, now: int): (ts: int)
    ensures !cfg.respectValidity ==> ts == now + cfg.defaultTtl
    ensures cfg.respectValidity && c.cacheDuration.Some? ==> ts == now + c.cacheDuration.value
    ensures cfg.respectValidity && c.cacheDuration.None? && c.validUntil.Some? ==> ts == c.validUntil.value
    ensures c.cacheDuration.None? && c.validUntil.None? ==> ts == now + cfg.defaultTtl
    ensures HintsMatch(c) && "cacheDuration" !in c.attrs && "validUntil" !in c.attrs ==> ts == now + cfg.defaultTtl
    ensures HintsMatch(c) && cfg.respectValidity && "cacheDuration" in c.attrs ==> ts == now + c.cacheDuration.value
  {
    var ts := now + cfg.defaultTtl;
    if !cfg.respectValidity then ts
    else
      var ts := if c.validUntil.Some? then c.validUntil.value else ts;
      if c.cacheDuration.Some? then now + c.cacheDuration.value else ts
  }

  // ---------------------------------------------------------------------
  // Write path

  /** The first half of `update_entity`: the document and, when given, its expiry. */
  function StoreDocument(st: State, tid: string, xml: string, ts: Option<int>): (r: State)
    ensures GetString(r, MetadataKey(tid)) == Some(xml)
    ensures GetExpiry(r, MetadataKey(tid)) == ts
    ensures forall k :: k != MetadataKey(tid) ==> GetString(r, k) == GetString(st, k) && GetExpiry(r, k) == GetExpiry(st, k)
    ensures r.hashes == st.hashes && r.sets == st.sets && r.zsets == st.zsets
    ensures WellFormed(st) ==> WellFormed(r)
  {
    var s1 := Set(st, MetadataKey(tid), xml);
    if ts.Some? then ExpireAt(s1, MetadataKey(tid), ts.value) else s1
  }

  /**
   * The second half of `update_entity`: `nfo` is `{expires: ts}` updated
   * with the root's attributes, merged into the hash `tid`, which then
   * expires at `ts` when there is one.
   */
  function StoreInfo(st: State, tid: string, attrs: map<string, string>, ts: Option<int>): (r: State)
    ensures tid in r.hashes
    ensures forall f :: f in attrs ==> f in r.hashes[tid] && r.hashes[tid][f] == attrs[f]
    ensures "expires" !in attrs ==> "expires" in r.hashes[tid] && r.hashes[tid]["expires"] == ShowTs(ts)
    ensures forall f :: f in HGetAll(st, tid) && f !in attrs && f != "expires" ==>
      f in r.hashes[tid] && r.hashes[tid][f] == HGetAll(st, tid)[f]
    ensures forall f :: f in r.hashes[tid] ==> f in attrs || f == "expires" || f in HGetAll(st, tid)
    ensures ts.Some? ==> GetExpiry(r, tid) == ts
    ensures ts.None? ==> GetExpiry(r, tid) == GetExpiry(st, tid)
    ensures forall k :: k != tid ==> GetHash(r, k) == GetHash(st, k) && GetExpiry(r, k) == GetExpiry(st, k)
    ensures r.strings == st.strings && r.sets == st.sets && r.zsets == st.zsets
    ensures WellFormed(st) ==> WellFormed(r)
  {
    var nfo := map["expires" := ShowTs(ts)] + attrs;
    var s1 := HSetAll(st, tid, nfo);
    if ts.Some? then ExpireAt(s1, tid, ts.value) else s1
  }

  /**
   * `update_entity`: the serialized document under `<tid>#metadata` and
   * the root attributes, with `expires`, merged into the hash `<tid>`;
   * both keys expire at `ts` when there is one.  Nothing else changes.
   */
  function UpdateEntity(st: State, attrs: map<string, string>, xml: string, tid: string, ts: Option<int>): (r: State)
    ensures GetString(r, MetadataKey(tid)) == Some(xml)
    ensures tid in r.hashes
    ensures forall f :: f in attrs ==> f in r.hashes[tid] && r.hashes[tid][f] == attrs[f]
    ensures "expires" !in attrs ==> "expires" in r.hashes[tid] && r.hashes[tid]["expires"] == ShowTs(ts)
    ensures forall f :: f in HGetAll(st, tid) && f !in attrs && f != "expires" ==>
      f in r.hashes[tid] && r.hashes[tid][f] == HGetAll(st, tid)[f]
    ensures forall f :: f in r.hashes[tid] ==> f in attrs || f == "expires" || f in HGetAll(st, tid)
    ensures ts.Some? ==> GetExpiry(r, MetadataKey(tid)) == ts && GetExpiry(r, tid) == ts
    ensures ts.None? ==> GetExpiry(r, MetadataKey(tid)) == None && GetExpiry(r, tid) == GetExpiry(st, tid)
    ensures forall k :: k != MetadataKey(tid) ==> GetString(r, k) == GetString(st, k)
    ensures forall k :: k != tid ==> GetHash(r, k) == GetHash(st, k)
    ensures forall k :: k != tid && k != MetadataKey(tid) ==> GetExpiry(r, k) == GetExpiry(st, k)
    ensures r.sets == st.sets && r.zsets == st.zsets
    ensures WellFormed(st) ==> WellFormed(r)
  {
    hide StoreDocument, StoreInfo;
    var s1 := StoreDocument(st, tid, xml, ts);
    assert HGetAll(s1, tid) == HGetAll(st, tid);
    assert |MetadataKey(tid)| != |tid|;
    StoreInfo(s1, tid, attrs, ts)
  }

  /** `membership`: `mid` joins group `gid` at score `ts`, and `gid` is registered as a collection. */
  function Membership(st: State, gid: string, mid: string, ts: int): (r: State)
    ensures Scored(r, MembersKey(gid), mid, ts)
    ensures gid in SMembers(r, CollectionsKey)
    ensures SMembers(r, CollectionsKey) == SMembers(st, CollectionsKey) + {gid}
    ensures forall x :: x != mid ==> (InZset(r, MembersKey(gid), x) <==> InZset(st, MembersKey(gid), x))
    ensures forall x :: x != mid && InZset(st, MembersKey(gid), x) ==> Scored(r, MembersKey(gid), x, st.zsets[MembersKey(gid)][x])
    ensures Extends(st, r, ts)
    ensures forall k :: k != MembersKey(gid) ==> GetZset(r, k) == GetZset(st, k)
    ensures forall k :: k != CollectionsKey ==> GetSet(r, k) == GetSet(st, k)
    ensures r.strings == st.strings && r.hashes == st.hashes && r.expiry == st.expiry
    ensures WellFormed(st) ==> WellFormed(r)
  {
    SAdd(ZAdd(st, MembersKey(gid), mid, ts), CollectionsKey, gid)
  }

  /** The three index entries one (attribute, value) pair of an entity leaves. */
  ghost predicate Indexed(st: State, a: string, v: string, tid: string, ts: int) {
    && Scored(st, MembersKey(AttrGroup(a, v)), tid, ts)
    && AttrGroup(a, v) in SMembers(st, CollectionsKey)
    && Scored(st, ValuesKey(a), v, ts)
  }

  lemma IndexedStable(a: State, b: State, attr: string, v: string, tid: string, ts: int)
    requires Indexed(a, attr, v, tid, ts) && Extends(a, b, ts)
    ensures Indexed(b, attr, v, tid, ts)
  {
  }

  /** The sorted sets the index entries of attribute `a` with values `vs` go to. */
  predicate ValueIndexKey(a: string, vs: seq<string>, k: string) {
    exists v :: v in vs && (k == MembersKey(AttrGroup(a, v)) || k == ValuesKey(a))
  }

  lemma ValueIndexKeyFirst(a: string, vs: seq<string>)
    requires |vs| > 0
    ensures forall k :: ValueIndexKey(a, vs, k) <==>
      k == MembersKey(AttrGroup(a, vs[0])) || k == ValuesKey(a) || ValueIndexKey(a, vs[1..], k)
  {
    forall k | ValueIndexKey(a, vs, k)
      ensures k == MembersKey(AttrGroup(a, vs[0])) || k == ValuesKey(a) || ValueIndexKey(a, vs[1..], k)
    {
      var v :| v in vs && (k == MembersKey(AttrGroup(a, v)) || k == ValuesKey(a));
      if v != vs[0] {
        assert v in vs[1..];
      }
    }
  }

  /** The sorted sets the index entries of the attribute dictionary `d` go to. */
  predicate IndexKey(d: AttrDict, k: string) {
    exists i :: 0 <= i < |d| && ValueIndexKey(PyStr(d[i].0), d[i].1, k)
  }

  /** One iteration of the inner loop: the value's group membership and its entry in `<a>#values`. */
  function IndexValue(st: State, a: string, v: string, tid: string, ts: int): (r: State)
    ensures Extends(st, r, ts)
    ensures Indexed(r, a, v, tid, ts)
    ensures forall k :: k != MembersKey(AttrGroup(a, v)) && k != ValuesKey(a) ==> GetZset(r, k) == GetZset(st, k)
    ensures SMembers(r, CollectionsKey) == SMembers(st, CollectionsKey) + {AttrGroup(a, v)}
    ensures forall k :: k != CollectionsKey ==> GetSet(r, k) == GetSet(st, k)
    ensures r.strings == st.strings && r.hashes == st.hashes && r.expiry == st.expiry
    ensures WellFormed(st) ==> WellFormed(r)
  {
    hide Membership;
    var s1 := Membership(st, AttrGroup(a, v), tid, ts);
    var r := ZAdd(s1, ValuesKey(a), v, ts);
    assert AttrGroup(a, v) in SMembers(r, CollectionsKey);
    r
  }

  /** The inner loop over the values of one attribute. */
  function IndexValues(st: State, a: string, vs: seq<string>, tid: string, ts: int): (r: State)
    ensures Extends(st, r, ts)
    ensures forall v :: v in vs ==> Indexed(r, a, v, tid, ts)
    ensures forall k :: !ValueIndexKey(a, vs, k) ==> GetZset(r, k) == GetZset(st, k)
    ensures forall g :: g in SMembers(r, CollectionsKey) ==> g in SMembers(st, CollectionsKey) || exists v :: v in vs && g == AttrGroup(a, v)
    ensures forall k :: k != CollectionsKey ==> GetSet(r, k) == GetSet(st, k)
    ensures r.strings == st.strings && r.hashes == st.hashes && r.expiry == st.expiry
    ensures WellFormed(st) ==> WellFormed(r)
    decreases |vs|
  {
    hide IndexValue, ValueIndexKey, WellFormed;
    if |vs| == 0 then st
    else
      var s1 := IndexValue(st, a, vs[0], tid, ts);
      var r := IndexValues(s1, a, vs[1..], tid, ts);
      IndexedStable(s1, r, a, vs[0], tid, ts);
      assert forall v :: v in vs[1..] ==> v in vs;
      ValueIndexKeyFirst(a, vs);
      ExtendsTransitive(st, s1, r, ts);
      r
  }

  /** One iteration of the outer loop: the values of attribute `a`, then `a` joins `#attributes`. */
  function IndexAttribute(st: State, a: string, vs: seq<string>, tid: string, ts: int): (r: State)
    ensures Extends(st, r, ts)
    ensures forall v :: v in vs ==> Indexed(r, a, v, tid, ts)
    ensures a in SMembers(r, AttributesKey)
    ensures SMembers(r, AttributesKey) == SMembers(st, AttributesKey) + {a}
    ensures forall k :: !ValueIndexKey(a, vs, k) ==> GetZset(r, k) == GetZset(st, k)
    ensures forall g :: g in SMembers(r, CollectionsKey) ==> g in SMembers(st, CollectionsKey) || exists v :: v in vs && g == AttrGroup(a, v)
    ensures forall k :: k != CollectionsKey && k != AttributesKey ==> GetSet(r, k) == GetSet(st, k)
    ensures r.strings == st.strings && r.hashes == st.hashes && r.expiry == st.expiry
    ensures WellFormed(st) ==> WellFormed(r)
  {
    hide IndexValues, SAdd;
    var s1 := IndexValues(st, a, vs, tid, ts);
    var r := SAdd(s1, AttributesKey, a);
    SAddExtends(s1, AttributesKey, a, ts);
    ExtendsTransitive(st, s1, r, ts);
    forall v | v in vs ensures Indexed(r, a, v, tid, ts) {
      IndexedStable(s1, r, a, v, tid, ts);
    }
    assert GetSet(s1, AttributesKey) == GetSet(st, AttributesKey);
    assert SMembers(s1, AttributesKey) == SMembers(st, AttributesKey);
    assert GetSet(r, CollectionsKey) == GetSet(s1, CollectionsKey);
    assert SMembers(r, CollectionsKey) == SMembers(s1, CollectionsKey);
    r
  }

  /** The outer loop over the attribute dictionary of an entity. */
  function IndexAttributes(st: State, d: AttrDict, tid: string, ts: int): (r: State)
    ensures Extends(st, r, ts)
    ensures forall k :: !IndexKey(d, k) ==> GetZset(r, k) == GetZset(st, k)
    ensures forall a :: a in SMembers(r, AttributesKey) ==> a in SMembers(st, AttributesKey) || exists i :: 0 <= i < |d| && a == PyStr(d[i].0)
    ensures forall k :: k != CollectionsKey && k != AttributesKey ==> GetSet(r, k) == GetSet(st, k)
    ensures r.strings == st.strings && r.hashes == st.hashes && r.expiry == st.expiry
    ensures WellFormed(st) ==> WellFormed(r)
    decreases |d|
  {
    hide IndexAttribute;
    if |d| == 0 then st
    else
      var s1 := IndexAttribute(st, PyStr(d[0].0), d[0].1, tid, ts);
      var r := IndexAttributes(s1, d[1..], tid, ts);
      ExtendsTransitive(st, s1, r, ts);
      r
  }

  /** One step of the outer loop, for proofs that keep the definitions hidden. */
  lemma IndexAttributesStep(st: State, d: AttrDict, tid: string, ts: int)
    ensures |d| == 0 ==> IndexAttributes(st, d, tid, ts) == st
    ensures |d| > 0 ==>
      IndexAttributes(st, d, tid, ts) == IndexAttributes(IndexAttribute(st, PyStr(d[0].0), d[0].1, tid, ts), d[1..], tid, ts)
  {
    hide IndexAttribute;
  }

  /**
   * After the outer loop every (attribute, value) pair of the dictionary
   * has its three index entries, and every attribute name is registered.
   */
  lemma {:induction false} AttributesIndexed(st: State, d: AttrDict, tid: string, ts: int)
    ensures var r := IndexAttributes(st, d, tid, ts);
      forall i, v :: 0 <= i < |d| && v in d[i].1 ==> Indexed(r, PyStr(d[i].0), v, tid, ts)
    ensures var r := IndexAttributes(st, d, tid, ts);
      forall i :: 0 <= i < |d| ==> PyStr(d[i].0) in SMembers(r, AttributesKey)
    decreases |d|
  {
    hide *;
    IndexAttributesStep(st, d, tid, ts);
    if |d| > 0 {
      var a := PyStr(d[0].0);
      var s1 := IndexAttribute(st, a, d[0].1, tid, ts);
      var r := IndexAttributes(s1, d[1..], tid, ts);
      AttributesIndexed(s1, d[1..], tid, ts);
      forall v | v in d[0].1 ensures Indexed(r, a, v, tid, ts) {
        IndexedStable(s1, r, a, v, tid, ts);
      }
      MemberStable(s1, r, AttributesKey, a, ts);
      assert forall i :: 1 <= i < |d| ==> d[i] == d[1..][i - 1];
    }
  }

  /** The alias keys written for `tid` under the hashes `hs`. */
  function AliasKeys(cfg: Config, tid: string, hs: seq<HashName>): set<string> {
    set h | h in hs :: AliasKey(AliasName(cfg, h, tid))
  }

  /** The bare digests whose expiry the alias loop sets. */
  function Digests(cfg: Config, tid: string, hs: seq<HashName>): set<string> {
    set h | h in hs :: cfg.hexDigest(tid, h)
  }

  /**
   * The alias loop: `{<hash>}<digest>#alias` maps to `tid` for every hash.
   * The expiry is set on the bare digest key, not on the alias key.
   */
  function RegisterAliases(st: State, tid: string, ts: int, cfg: Config, hs: seq<HashName>): (r: State)
    ensures forall h :: h in hs ==> GetString(r, AliasKey(AliasName(cfg, h, tid))) == Some(tid)
    ensures forall k :: k !in AliasKeys(cfg, tid, hs) ==> GetString(r, k) == GetString(st, k)
    ensures forall k :: k !in AliasKeys(cfg, tid, hs) && k !in Digests(cfg, tid, hs) ==> GetExpiry(r, k) == GetExpiry(st, k)
    ensures forall k :: k !in AliasKeys(cfg, tid, hs) && GetExpiry(st, k) == Some(ts) ==> GetExpiry(r, k) == Some(ts)
    ensures ValidConfig(cfg) ==> forall h :: h in hs ==> GetExpiry(r, AliasKey(AliasName(cfg, h, tid))) == None
    ensures r.hashes == st.hashes && r.sets == st.sets && r.zsets == st.zsets
    ensures WellFormed(st) ==> WellFormed(r)
    decreases |hs|
  {
    hide Set, ExpireAt;
    if |hs| == 0 then st
    else
      var digest := cfg.hexDigest(tid, hs[0]);
      var s1 := Set(st, AliasKey(AliasName(cfg, hs[0], tid)), tid);
      var r := RegisterAliases(ExpireAt(s1, digest, ts), tid, ts, cfg, hs[1..]);
      AliasKeysAreNotDigests(cfg, tid, hs);
      r
  }

  lemma AliasKeysAreNotDigests(cfg: Config, tid: string, hs: seq<HashName>)
    ensures ValidConfig(cfg) ==> forall h, h' :: h in hs && h' in hs ==> AliasKey(AliasName(cfg, h, tid)) != cfg.hexDigest(tid, h')
  {
    if ValidConfig(cfg) {
      forall h, h' | h in hs && h' in hs ensures AliasKey(AliasName(cfg, h, tid)) != cfg.hexDigest(tid, h') {
        var k := AliasKey(AliasName(cfg, h, tid));
        assert k[|k| - 6] == '#';
        HexHasNoHash(cfg.hexDigest(tid, h'));
      }
    }
  }

  lemma SuffixInjective(a: string, b: string, suffix: string)
    ensures a + suffix == b + suffix ==> a == b
  {
    if a + suffix == b + suffix {
      assert a == (a + suffix)[..|a|];
      assert b == (b + suffix)[..|b|];
    }
  }

  /** A document key never collides with an alias key. */
  lemma MetadataIsNotAlias(x: string, tid: string, cfg: Config)
    ensures MetadataKey(x) !in AliasKeys(cfg, tid, AliasHashes)
  {
    forall h | h in AliasHashes ensures MetadataKey(x) != AliasKey(AliasName(cfg, h, tid)) {
      var a := MetadataKey(x);
      var b := AliasKey(AliasName(cfg, h, tid));
      assert a[|a| - 1] == 'a' && b[|b| - 1] == 's';
    }
  }

  /** A state change that leaves every set and sorted set as it was extends the state. */
  lemma SameIndexesExtend(a: State, b: State, ts: int)
    requires a.sets == b.sets && a.zsets == b.zsets
    ensures Extends(a, b, ts)
  {
  }

  /**
   * The entity branch of `update`, writing under `tid` with expiry `ts`,
   * for an entity whose attribute dictionary can be built (`update`
   * handles the other case before anything is written).
   */
  function EntityUpdate(st: State, e: Entity, tid: string, ts: int, cfg: Config): (r: State)
    requires Readable(e)
    ensures Extends(st, r, ts)
    ensures forall k :: !IndexKey(EntityAttributeDict(e).value, k) ==> GetZset(r, k) == GetZset(st, k)
    ensures forall k :: k != CollectionsKey && k != AttributesKey ==> GetSet(r, k) == GetSet(st, k)
    ensures GetString(r, MetadataKey(tid)) == Some(e.xml)
    ensures forall x :: x != tid ==> GetString(r, MetadataKey(x)) == GetString(st, MetadataKey(x))
    ensures WellFormed(st) ==> WellFormed(r)
  {
    hide UpdateEntity, IndexAttributes, RegisterAliases, EntityAttributeDict, Readable, IndexKey, WellFormed;
    var d := EntityAttributeDict(e).value;
    var s1 := UpdateEntity(st, e.attrs, e.xml, tid, Some(ts));
    var s2 := IndexAttributes(s1, d, tid, ts);
    var r := RegisterAliases(s2, tid, ts, cfg, AliasHashes);
    SameKinds(st, s1);
    SameKinds(s2, r);
    SameIndexesExtend(st, s1, ts);
    SameIndexesExtend(s2, r, ts);
    ExtendsTransitive(st, s1, s2, ts);
    ExtendsTransitive(st, s2, r, ts);
    forall x | x != tid ensures GetString(r, MetadataKey(x)) == GetString(st, MetadataKey(x)) {
      MetadataIsNotAlias(x, tid, cfg);
      assert GetString(r, MetadataKey(x)) == GetString(s2, MetadataKey(x));
      SuffixInjective(x, tid, "#metadata");
    }
    MetadataIsNotAlias(tid, tid, cfg);
    r
  }

  /** The three stages of the entity branch, for proofs that keep the definitions hidden. */
  lemma EntityUpdateStep(st: State, e: Entity, tid: string, ts: int, cfg: Config)
    requires Readable(e)
    ensures EntityUpdate(st, e, tid, ts, cfg) ==
      RegisterAliases(IndexAttributes(UpdateEntity(st, e.attrs, e.xml, tid, Some(ts)), EntityAttributeDict(e).value, tid, ts), tid, ts, cfg, AliasHashes)
  {
    hide UpdateEntity, IndexAttributes, RegisterAliases, EntityAttributeDict;
  }

  /**
   * The collection batch after the children: each child joins the
   * collection's group and the global `entities` group.
   */
  function RegisterChildren(st: State, gid: string, es: seq<Entity>, ts: int): (r: State)
    ensures Extends(st, r, ts)
    ensures |es| > 0 ==> gid in SMembers(r, CollectionsKey) && EntitiesGroup in SMembers(r, CollectionsKey)
    ensures SMembers(r, CollectionsKey) == SMembers(st, CollectionsKey) + (if |es| > 0 then {gid, EntitiesGroup} else {})
    ensures forall k :: k != MembersKey(gid) && k != MembersKey(EntitiesGroup) ==> GetZset(r, k) == GetZset(st, k)
    ensures forall k :: k != CollectionsKey ==> GetSet(r, k) == GetSet(st, k)
    ensures r.strings == st.strings && r.hashes == st.hashes && r.expiry == st.expiry
    ensures WellFormed(st) ==> WellFormed(r)
    decreases |es|
  {
    hide Membership, WellFormed, SMembers, GetZset, GetSet;
    if |es| == 0 then st
    else
      var id := EntityId(es[0]);
      var s0 := Membership(st, gid, id, ts);
      var s1 := Membership(s0, EntitiesGroup, id, ts);
      var r := RegisterChildren(s1, gid, es[1..], ts);
      ExtendsTransitive(st, s0, s1, ts);
      ExtendsTransitive(st, s1, r, ts);
      assert SMembers(s1, CollectionsKey) == SMembers(st, CollectionsKey) + {gid, EntitiesGroup};
      r
  }

  lemma RegisterChildrenStep(st: State, gid: string, es: seq<Entity>, ts: int)
    requires |es| > 0
    ensures RegisterChildren(st, gid, es, ts) ==
      RegisterChildren(Membership(Membership(st, gid, EntityId(es[0]), ts), EntitiesGroup, EntityId(es[0]), ts), gid, es[1..], ts)
  {
  }

  /** Every child of the collection is a member of the collection's group and of `entities`, scored `ts`. */
  lemma {:induction false} ChildrenJoinGroups(st: State, gid: string, es: seq<Entity>, ts: int)
    ensures var r := RegisterChildren(st, gid, es, ts);
      forall i :: 0 <= i < |es| ==>
        Scored(r, MembersKey(gid), EntityId(es[i]), ts) && Scored(r, MembersKey(EntitiesGroup), EntityId(es[i]), ts)
    decreases |es|
  {
    hide *;
    if |es| > 0 {
      var id := EntityId(es[0]);
      var s0 := Membership(st, gid, id, ts);
      var s1 := Membership(s0, EntitiesGroup, id, ts);
      var r := RegisterChildren(s1, gid, es[1..], ts);
      RegisterChildrenStep(st, gid, es, ts);
      ChildrenJoinGroups(s1, gid, es[1..], ts);
      ScoredStable(s0, s1, MembersKey(gid), id, ts);
      ScoredStable(s1, r, MembersKey(gid), id, ts);
      ScoredStable(s1, r, MembersKey(EntitiesGroup), id, ts);
      assert forall i :: 1 <= i < |es| ==> es[i] == es[1..][i - 1];
    }
  }

  /**
   * `ne += self.update(e, ts=ts)` over the entities of a collection: each
   * entity is written under its own `entityID` with the collection's
   * expiry, and counts one.  The loop stops at the first entity whose
   * attribute dictionary raises; the batches of the entities before it
   * have already run.
   */
  function UpdateChildren(st: State, es: seq<Entity>, ts: int, cfg: Config): (r: State)
    ensures Extends(st, r, ts)
    ensures WellFormed(st) ==> WellFormed(r)
    decreases |es|
  {
    if |es| == 0 || !Readable(es[0]) then st
    else
      var s1 := EntityUpdate(st, es[0], EntityId(es[0]), ts, cfg);
      var r := UpdateChildren(s1, es[1..], ts, cfg);
      ExtendsTransitive(st, s1, r, ts);
      r
  }

  /** One step of the loop over the children, for proofs that keep the definitions hidden. */
  lemma UpdateChildrenStep(st: State, es: seq<Entity>, ts: int, cfg: Config)
    ensures |es| == 0 || !Readable(es[0]) ==> UpdateChildren(st, es, ts, cfg) == st
    ensures |es| > 0 && Readable(es[0]) ==>
      UpdateChildren(st, es, ts, cfg) == UpdateChildren(EntityUpdate(st, es[0], EntityId(es[0]), ts, cfg), es[1..], ts, cfg)
  {
    hide EntityUpdate;
  }

  /**
   * After the children are written, each entity's document is stored
   * under its id unless a later entity has the same id, and the document
   * of any other id is as it was.
   */
  lemma {:induction false} ChildrenDocuments(st: State, es: seq<Entity>, ts: int, cfg: Config)
    requires AllReadable(es)
    ensures var r := UpdateChildren(st, es, ts, cfg);
      forall i :: 0 <= i < |es| && LastWithId(es, i) ==> GetString(r, MetadataKey(EntityId(es[i]))) == Some(es[i].xml)
    ensures var r := UpdateChildren(st, es, ts, cfg);
      forall x :: (forall i :: 0 <= i < |es| ==> EntityId(es[i]) != x) ==> GetString(r, MetadataKey(x)) == GetString(st, MetadataKey(x))
    decreases |es|
  {
    hide EntityUpdate, UpdateChildren;
    UpdateChildrenStep(st, es, ts, cfg);
    if |es| > 0 {
      var id := EntityId(es[0]);
      var s1 := EntityUpdate(st, es[0], id, ts, cfg);
      var r := UpdateChildren(s1, es[1..], ts, cfg);
      assert AllReadable(es[1..]);
      ChildrenDocuments(s1, es[1..], ts, cfg);
      forall i | 0 <= i < |es| && LastWithId(es, i)
        ensures GetString(r, MetadataKey(EntityId(es[i]))) == Some(es[i].xml)
      {
        if i == 0 {
          assert forall j :: 0 <= j < |es[1..]| ==> EntityId(es[1..][j]) != id;
        } else {
          assert LastWithId(es[1..], i - 1);
        }
      }
      forall x | forall i :: 0 <= i < |es| ==> EntityId(es[i]) != x
        ensures GetString(r, MetadataKey(x)) == GetString(st, MetadataKey(x))
      {
        assert EntityId(es[0]) != x;
        assert forall j :: 0 <= j < |es[1..]| ==> EntityId(es[1..][j]) != x;
      }
    }
  }

  /** No entity after the `i`th has the same id: its document is the one that stays. */
  predicate LastWithId(es: seq<Entity>, i: int) {
    0 <= i < |es| && forall j :: i < j < |es| ==> EntityId(es[j]) != EntityId(es[i])
  }

  /**
   * The entity branch of `update` with its batch: an entity whose
   * attribute dictionary raises writes nothing, the batch being
   * discarded; otherwise the batch runs and the entity counts one.
   */
  function EntityBranch(st: State, e: Entity, id: string, ts: int, cfg: Config): (r: (State, Result<nat, StoreError>))
    ensures r.1.Success? <==> Readable(e)
    ensures r.1.Success? ==> r.1 == Success(1) && GetString(r.0, MetadataKey(id)) == Some(e.xml)
    ensures r.1.Failure? ==> r.0 == st && r.1 == Failure(MissingText)
    ensures WellFormed(st) ==> WellFormed(r.0)
  {
    hide EntityUpdate;
    if Readable(e) then (EntityUpdate(st, e, id, ts, cfg), Success(1)) else (st, Failure(MissingText))
  }

  /**
   * The collection's own batch: its document and info hash, then the
   * memberships of its entities.
   */
  function CollectionBatch(st: State, c: Collection, id: string, cts: int): (r: State)
    ensures GetString(r, MetadataKey(id)) == Some(c.xml)
    ensures GetExpiry(r, MetadataKey(id)) == Some(cts)
    ensures |c.entities| > 0 ==> id in SMembers(r, CollectionsKey) && EntitiesGroup in SMembers(r, CollectionsKey)
    ensures SMembers(r, CollectionsKey) == SMembers(st, CollectionsKey) + (if |c.entities| > 0 then {id, EntitiesGroup} else {})
    ensures forall k :: k != MembersKey(id) && k != MembersKey(EntitiesGroup) ==> GetZset(r, k) == GetZset(st, k)
    ensures forall k :: k != CollectionsKey ==> GetSet(r, k) == GetSet(st, k)
    ensures WellFormed(st) ==> WellFormed(r)
  {
    hide UpdateEntity, RegisterChildren, WellFormed, Extends, GetZset, GetSet;
    var s1 := UpdateEntity(st, c.attrs, c.xml, id, Some(cts));
    SameKinds(st, s1);
    RegisterChildren(s1, id, c.entities, cts)
  }

  /**
   * The collection's info hash after its batch: the root's attributes
   * over `expires`, expiring at the collection's expiry; every other
   * document and hash is as it was.
   */
  lemma CollectionBatchInfo(st: State, c: Collection, id: string, cts: int)
    ensures var r := CollectionBatch(st, c, id, cts);
      && id in r.hashes && GetExpiry(r, id) == Some(cts)
      && (forall f :: f in c.attrs ==> f in r.hashes[id] && r.hashes[id][f] == c.attrs[f])
      && ("expires" !in c.attrs ==> "expires" in r.hashes[id] && r.hashes[id]["expires"] == ShowInt(cts))
    ensures var r := CollectionBatch(st, c, id, cts);
      forall k :: k != MetadataKey(id) ==> GetString(r, k) == GetString(st, k)
    ensures var r := CollectionBatch(st, c, id, cts);
      forall k :: k != id ==> GetHash(r, k) == GetHash(st, k)
  {
    hide CollectionBatch, UpdateEntity, RegisterChildren, WellFormed, Extends;
    CollectionBatchStep(st, c, id, cts);
    var s1 := UpdateEntity(st, c.attrs, c.xml, id, Some(cts));
    var r := RegisterChildren(s1, id, c.entities, cts);
    assert r.hashes == s1.hashes && r.expiry == s1.expiry && r.strings == s1.strings;
  }

  lemma CollectionBatchStep(st: State, c: Collection, id: string, cts: int)
    ensures CollectionBatch(st, c, id, cts) == RegisterChildren(UpdateEntity(st, c.attrs, c.xml, id, Some(cts)), id, c.entities, cts)
  {
    hide UpdateEntity, RegisterChildren;
  }

  /**
   * The collection branch of `update` after the expiry is worked out: the
   * entities are updated in turn, each in its own batch; when one of them
   * raises, the loop stops there and the collection's own batch is
   * discarded; otherwise the collection's batch runs.
   */
  function CollectionBranch(st: State, c: Collection, id: string, cts: int, cfg: Config): (r: (State, Result<nat, StoreError>))
    ensures r.1.Success? <==> AllReadable(c.entities)
    ensures r.1.Success? ==> r.1 == Success(|c.entities|) && GetString(r.0, MetadataKey(id)) == Some(c.xml)
    ensures r.1.Failure? ==> r.0 == UpdateChildren(st, c.entities, cts, cfg) && r.1 == Failure(MissingText)
    ensures WellFormed(st) ==> WellFormed(r.0)
  {
    hide UpdateChildren, CollectionBatch, AllReadable, WellFormed, Extends;
    var s1 := UpdateChildren(st, c.entities, cts, cfg);
    if !AllReadable(c.entities) then (s1, Failure(MissingText))
    else (CollectionBatch(s1, c, id, cts), Success(|c.entities|))
  }

  /**
   * `update(t, tid, ts)`: the new state and the number of entities
   * written, or the error raised.
   */
  function Update(st: State, doc: Document, tid: Option<string>, ts: Option<int>, now: int, cfg: Config)
    : (r: (State, Result<nat, StoreError>))
    ensures WellFormed(st) ==> WellFormed(r.0)
    ensures doc.OtherDoc? ==> r.0 == st && r.1 == Failure(BadTopLevel(doc.tag))
    ensures doc.EntityDoc? ==>
      && (r.1.Success? <==> Readable(doc.entity))
      && (r.1.Success? ==> r.1 == Success(1))
      && (r.1.Failure? ==> r.0 == st && r.1 == Failure(MissingText))
    ensures doc.CollectionDoc? ==>
      && (r.1.Success? <==> AllReadable(doc.collection.entities))
      && (r.1.Success? ==> r.1 == Success(|doc.collection.entities|))
      && (r.1.Failure? ==> r.1 == Failure(MissingText))
  {
    hide EntityBranch, CollectionBranch, Expiration, Readable, AllReadable, WellFormed;
    var ts := if ts.Some? then ts.value else now + FourDays;
    match doc
    case EntityDoc(e) =>
      EntityBranch(st, e, if tid.Some? then tid.value else EntityId(e), ts, cfg)
    case CollectionDoc(c) =>
      var id := if tid.Some? then tid.value else PyStr(AttrValue(c.attrs, "Name"));
      CollectionBranch(st, c, id, Expiration(cfg, c, now), cfg)
    case OtherDoc(tag) => (st, Failure(BadTopLevel(tag)))
  }

  /**
   * `update` exactly as store.py:147 is written: `_expiration` takes one
   * argument besides `self` but is handed two, so Python raises TypeError
   * for every collection before any write; the other branches are those of
   * `Update`, which reads the call as `_expiration(relt)`.
   */
  function UpdateAsWritten(st: State, doc: Document, tid: Option<string>, ts: Option<int>, now: int, cfg: Config)
    : (r: (State, Result<nat, StoreError>))
    ensures doc.CollectionDoc? ==> r.0 == st && r.1 == Failure(ArityMismatch("_expiration"))
    ensures !doc.CollectionDoc? ==> r == Update(st, doc, tid, ts, now, cfg)
  {
    if doc.CollectionDoc? then (st, Failure(ArityMismatch("_expiration")))
    else Update(st, doc, tid, ts, now, cfg)
  }

  // ---------------------------------------------------------------------
  // Read path

  /** What `lookup` returns: a parsed document, or the list `members` builds. */
  datatype Found = Document(xml: string) | Group(items: seq<Found>)

  /** The `#members` keys of the `+`-separated parts of a composite key, in order. */
  function CompositeSources(key: string): (srcs: seq<string>)
    ensures |srcs| == |Split(key, '+')| >= 1
    ensures forall i :: 0 <= i < |srcs| ==> srcs[i] == MembersKey(Split(key, '+')[i])
  {
    var parts := Split(key, '+');
    seq(|parts|, i requires 0 <= i < |parts| => MembersKey(parts[i]))
  }

  /**
   * The writes of the composite branch of `lookup`: unless `<hk>#members`
   * exists, the intersection of the parts' groups, each member scored by
   * its least expiry, is stored under `hk` itself and given a 30-second
   * lifetime.  Nothing but the sorted set and expiry of `hk` changes.
   */
  function CompositeCache(st: State, key: string, now: int, cfg: Config): (r: State)
    ensures var hk := cfg.compositeDigest(key);
      Exists(st, MembersKey(hk)) ==> r == st
    ensures var hk := cfg.compositeDigest(key); var inter := Inter(Sources(st, CompositeSources(key)));
      !Exists(st, MembersKey(hk)) ==>
        && GetZset(r, hk) == (if inter == map[] then None else Some(inter))
        && (inter != map[] ==> GetExpiry(r, hk) == Some(now + CompositeWindow))
    ensures forall j :: j != cfg.compositeDigest(key) ==> GetZset(r, j) == GetZset(st, j) && GetExpiry(r, j) == GetExpiry(st, j)
    ensures r.strings == st.strings && r.hashes == st.hashes && r.sets == st.sets
    ensures WellFormed(st) ==> WellFormed(r)
  {
    hide Inter, Sources;
    var hk := cfg.compositeDigest(key);
    if Exists(st, MembersKey(hk)) then st
    else Expire(ZInterStore(st, hk, CompositeSources(key)), hk, CompositeWindow, now)
  }

  lemma HexHasNoHash(s: string)
    requires IsHex(s)
    ensures '#' !in s
  {
  }

  lemma CompositeCacheUntouchesIndex(st: State, key: string, now: int, cfg: Config)
    ensures ValidConfig(cfg) ==> IndexUntouched(st, CompositeCache(st, key, now, cfg))
  {
    if ValidConfig(cfg) {
      HexHasNoHash(cfg.compositeDigest(key));
    }
  }

  /**
   * `lookup(key)`, resolving in this order: a key with `+` through its
   * digest; an existing `<key>#alias` through the id it names; an
   * existing `<key>#metadata` as that document; otherwise the key as a
   * group.  `fuel` bounds the recursion depth.
   */
  function Lookup(st: State, key: string, now: int, cfg: Config, fuel: nat): (r: (State, Result<Found, StoreError>))
    ensures ValidConfig(cfg) ==> IndexUntouched(st, r.0)
    ensures WellFormed(st) ==> WellFormed(r.0)
    decreases fuel, 0, 0
  {
    if fuel == 0 then (st, Failure(RecursionLimit))
    else if '+' in key then
      var s1 := CompositeCache(st, key, now, cfg);
      var r := Lookup(s1, cfg.compositeDigest(key), now, cfg, fuel - 1);
      CompositeCacheUntouchesIndex(st, key, now, cfg);
      r
    else if Exists(st, AliasKey(key)) then
      match GetString(st, AliasKey(key))
      case Some(target) => Lookup(st, target, now, cfg, fuel - 1)
      case None => (st, Failure(WrongKind(AliasKey(key))))
    else if Exists(st, MetadataKey(key)) then
      match GetString(st, MetadataKey(key))
      case Some(xml) => (st, Success(Document(xml)))
      case None => (st, Failure(WrongKind(MetadataKey(key))))
    else Members(st, key, now, cfg, fuel - 1)
  }

  /**
   * `members(k)`: nothing when `<k>#members` does not exist; an error when
   * it holds something other than a sorted set; otherwise the lookups of
   * exactly the members whose expiry has not passed.
   */
  function Members(st: State, k: string, now: int, cfg: Config, fuel: nat): (r: (State, Result<Found, StoreError>))
    ensures !Exists(st, MembersKey(k)) ==> r == (st, Success(Group([])))
    ensures Exists(st, MembersKey(k)) && GetZset(st, MembersKey(k)).None? ==> r == (st, Failure(WrongKind(MembersKey(k))))
    ensures r.1.Success? ==> r.1.value.Group? && |r.1.value.items| == |Fresh(ZsetOrEmpty(st, MembersKey(k)), now)|
    ensures ValidConfig(cfg) ==> IndexUntouched(st, r.0)
    ensures WellFormed(st) ==> WellFormed(r.0)
    decreases fuel, 2, 0
  {
    if !Exists(st, MembersKey(k)) then (st, Success(Group([])))
    else if GetZset(st, MembersKey(k)).None? then (st, Failure(WrongKind(MembersKey(k))))
    else
      var each := LookupEach(st, ZRangeByScore(st, MembersKey(k), now), now, cfg, fuel);
      match each.1
      case Success(items) => (each.0, Success(Group(items)))
      case Failure(err) => (each.0, Failure(err))
  }

  /** The list comprehension of `members`: each id looked up in turn. */
  function LookupEach(st: State, ids: seq<string>, now: int, cfg: Config, fuel: nat)
    : (r: (State, Result<seq<Found>, StoreError>))
    ensures r.1.Success? ==> |r.1.value| == |ids|
    ensures ValidConfig(cfg) ==> IndexUntouched(st, r.0)
    ensures WellFormed(st) ==> WellFormed(r.0)
    decreases fuel, 1, |ids|
  {
    if |ids| == 0 then (st, Success([]))
    else
      var first := Lookup(st, ids[0], now, cfg, fuel);
      match first.1
      case Failure(err) => (first.0, Failure(err))
      case Success(f) =>
        var rest := LookupEach(first.0, ids[1..], now, cfg, fuel);
        match rest.1
        case Failure(err) => (rest.0, Failure(err))
        case Success(fs) => (rest.0, Success([f] + fs))
  }

  /** `attribute(an)`: the values of `an` whose expiry has not passed, in expiry order. */
  function Attribute(st: State, an: string, now: int): (r: seq<string>)
    ensures forall v :: v in r <==> InZset(st, ValuesKey(an), v) && st.zsets[ValuesKey(an)][v] >= now
    ensures forall i, j :: 0 <= i < j < |r| ==> ValuesKey(an) in st.zsets && Before(st.zsets[ValuesKey(an)], r[i], r[j])
  {
    ZRangeByScore(st, ValuesKey(an), now)
  }

  /** `attributes()`. */
  function Attributes(st: State): set<string> {
    SMembers(st, AttributesKey)
  }

  /** `collections()`. */
  function Collections(st: State): set<string> {
    SMembers(st, CollectionsKey)
  }

  /** `size()`: how many members of `entities` have not expired. */
  function Size(st: State, now: int): (n: nat)
    ensures n == |ZRangeByScore(st, MembersKey(EntitiesGroup), now)|
  {
    ZCount(st, MembersKey(EntitiesGroup), now)
  }

  /** `set(key, mapping)`; redis-py refuses an empty mapping. */
  function SetHash(st: State, key: string, mapping: map<string, string>): (r: Result<State, StoreError>)
    ensures mapping == map[] <==> r.Failure?
    ensures r.Success? ==> HGetAll(r.value, key) == HGetAll(st, key) + mapping
    ensures r.Success? ==> forall k :: k != key ==> HGetAll(r.value, k) == HGetAll(st, k)
    ensures r.Success? ==> r.value.strings == st.strings && r.value.sets == st.sets && r.value.zsets == st.zsets
  {
    if mapping == map[] then Failure(EmptyMapping) else Success(HSetAll(st, key, mapping))
  }

  /** `get(key)`. */
  function GetHashAll(st: State, key: string): map<string, string> {
    HGetAll(st, key)
  }

  /** `reset()`. */
  function Reset(st: State): (r: State)
    ensures forall k :: !Exists(r, k)
  {
    Empty
  }

  // ---------------------------------------------------------------------
  // Reaper

  /** The key the collection loop prunes: the format string itself, never filled in. */
  const LiteralMembers := "%s#members"
  /** The key the attribute loop prunes, likewise unformatted. */
  const LiteralValues := "%s#values"

  /**
   * The collection loop of `periodic`: each iteration prunes the literal
   * key (the same key every time, so once is enough, and only when the
   * loop runs at all) and then drops the name from `#collections` when
   * `<name>#members` has no member.  Neither step depends on the order
   * the loop visits names.
   */
  function PruneCollections(st: State, now: int): (r: State)
    ensures forall c :: c in SMembers(r, CollectionsKey) <==> c in SMembers(st, CollectionsKey) && ZCard(r, MembersKey(c)) > 0
    ensures SMembers(st, CollectionsKey) != {} ==> GetZset(r, LiteralMembers) == GetZset(ZRemRangeByScore(st, LiteralMembers, now), LiteralMembers)
    ensures forall k :: k != LiteralMembers || SMembers(st, CollectionsKey) == {} ==> GetZset(r, k) == GetZset(st, k)
    ensures forall k :: k != CollectionsKey ==> GetSet(r, k) == GetSet(st, k)
    ensures forall k :: k != LiteralMembers && k != CollectionsKey ==> GetExpiry(r, k) == GetExpiry(st, k)
    ensures r.strings == st.strings && r.hashes == st.hashes
    ensures WellFormed(st) ==> WellFormed(r)
  {
    hide ZRemRangeByScore, SRemAll, WellFormed;
    var cs := SMembers(st, CollectionsKey);
    var s1 := if cs != {} then ZRemRangeByScore(st, LiteralMembers, now) else st;
    SRemAll(s1, CollectionsKey, set c | c in cs && ZCard(s1, MembersKey(c)) == 0)
  }

  /**
   * The attribute loop of `periodic`, likewise: it prunes the literal key
   * `%s#values` and drops the name from `#attributes` when
   * `<name>#members`, the group of that name, has no member.
   */
  function PruneAttributes(st: State, now: int): (r: State)
    ensures forall a :: a in SMembers(r, AttributesKey) <==> a in SMembers(st, AttributesKey) && ZCard(r, MembersKey(a)) > 0
    ensures SMembers(st, AttributesKey) != {} ==> GetZset(r, LiteralValues) == GetZset(ZRemRangeByScore(st, LiteralValues, now), LiteralValues)
    ensures forall k :: k != LiteralValues || SMembers(st, AttributesKey) == {} ==> GetZset(r, k) == GetZset(st, k)
    ensures forall k :: k != AttributesKey ==> GetSet(r, k) == GetSet(st, k)
    ensures forall k :: k != LiteralValues && k != AttributesKey ==> GetExpiry(r, k) == GetExpiry(st, k)
    ensures r.strings == st.strings && r.hashes == st.hashes
    ensures WellFormed(st) ==> WellFormed(r)
  {
    hide ZRemRangeByScore, SRemAll, WellFormed;
    var ans := SMembers(st, AttributesKey);
    var s1 := if ans != {} then ZRemRangeByScore(st, LiteralValues, now) else st;
    SRemAll(s1, AttributesKey, set a | a in ans && ZCard(s1, MembersKey(a)) == 0)
  }

  /** `periodic()`: expired members leave `entities`, then the two registry loops run. */
  function Periodic(st: State, now: int): (r: State)
    ensures r.strings == st.strings && r.hashes == st.hashes
    ensures forall k :: k !in {MembersKey(EntitiesGroup), LiteralMembers, LiteralValues, CollectionsKey, AttributesKey} ==>
      GetExpiry(r, k) == GetExpiry(st, k)
    ensures WellFormed(st) ==> WellFormed(r)
  {
    hide ZRemRangeByScore, PruneCollections, PruneAttributes;
    PruneAttributes(PruneCollections(ZRemRangeByScore(st, MembersKey(EntitiesGroup), now), now), now)
  }
}

=== FILE: text.dfy ===
/**
 * String helpers the store relies on: the byte-wise ordering Redis uses to
 * break score ties, Python's `str.strip()`, `str.split(sep)` with its
 * inverse `sep.join(...)`, and `str()` of an integer.
 */
module Text {

  /** Byte-wise (memcmp) ordering, a proper prefix sorting first. */
  predicate LexLess(a: string, b: string)
    decreases |a|
  {
    if |a| == 0 then |b| > 0
    else if |b| == 0 then false
    else a[0] < b[0] || (a[0] == b[0] && LexLess(a[1..], b[1..]))
  }

  lemma {:induction false} LexLessIrreflexive(a: string)
    ensures !LexLess(a, a)
    decreases |a|
  {
    if |a| > 0 {
      LexLessIrreflexive(a[1..]);
    }
  }

  lemma {:induction false} LexLessAsymmetric(a: string, b: string)
    ensures !(LexLess(a, b) && LexLess(b, a))
    decreases |a|
  {
    if |a| > 0 && |b| > 0 && a[0] == b[0] {
      LexLessAsymmetric(a[1..], b[1..]);
    }
  }

  lemma {:induction false} LexLessTransitive(a: string, b: string, c: string)
    requires LexLess(a, b) && LexLess(b, c)
    ensures LexLess(a, c)
    decreases |a|
  {
    if |a| > 0 && a[0] == b[0] && b[0] == c[0] {
      LexLessTransitive(a[1..], b[1..], c[1..]);
    }
  }

  lemma {:induction false} LexLessTotal(a: string, b: string)
    requires a != b
    ensures LexLess(a, b) || LexLess(b, a)
    decreases |a|
  {
    if |a| > 0 && |b| > 0 && a[0] == b[0] {
      assert a == [a[0]] + a[1..] && b == [b[0]] + b[1..];
      LexLessTotal(a[1..], b[1..]);
    }
  }

  /**
   * The characters `strip()` removes in Python 2.  A byte string (`str`,
   * `wide` false) strips the six ASCII whitespace characters; a `unicode`
   * string (`wide` true) strips every character its Unicode 5.2 database
   * calls whitespace, which adds the separators U+001C..U+001F and the
   * non-ASCII spaces below.
   */
  predicate IsSpace(c: char, wide: bool) {
    || c == ' ' || c == '\t' || c == '\n' || c == '\r' || c == '\U{0B}' || c == '\U{0C}'
    || (wide && (
      || ('\U{1C}' <= c <= '\U{1F}')
      || c == '\U{85}' || c == '\U{A0}' || c == '\U{1680}' || c == '\U{180E}'
      || ('\U{2000}' <= c <= '\U{200A}')
      || c == '\U{2028}' || c == '\U{2029}' || c == '\U{202F}' || c == '\U{205F}' || c == '\U{3000}'))
  }

  predicate AllSpace(s: string, wide: bool) {
    forall i :: 0 <= i < |s| ==> IsSpace(s[i], wide)
  }

  function LeadingSpaces(s: string, wide: bool): (n: nat)
    ensures n <= |s|
    ensures AllSpace(s[..n], wide)
    ensures n == |s| || !IsSpace(s[n], wide)
  {
    hide IsSpace;
    if |s| > 0 && IsSpace(s[0], wide) then
      var n := 1 + LeadingSpaces(s[1..], wide);
      assert s[..n] == [s[0]] + s[1..][..n - 1];
      n
    else 0
  }

  function TrailingSpaces(s: string, wide: bool): (n: nat)
    ensures n <= |s|
    ensures AllSpace(s[|s| - n..], wide)
    ensures n == |s| || !IsSpace(s[|s| - n - 1], wide)
  {
    hide IsSpace;
    if |s| > 0 && IsSpace(s[|s| - 1], wide) then
      var n := 1 + TrailingSpaces(s[..|s| - 1], wide);
      assert s[|s| - n..] == s[..|s| - 1][|s| - n..] + [s[|s| - 1]];
      n
    else 0
  }

  /**
   * `s.strip()` for a `str` (`wide` false) or a `unicode` (`wide` true):
   * the input is whitespace, then the result, then whitespace, and the
   * result neither starts nor ends with whitespace.
   */
  function Strip(s: string, wide: bool): (r: string)
    ensures LeadingSpaces(s, wide) + |r| <= |s|
    ensures s == s[..LeadingSpaces(s, wide)] + r + s[LeadingSpaces(s, wide) + |r|..]
    ensures AllSpace(s[..LeadingSpaces(s, wide)], wide) && AllSpace(s[LeadingSpaces(s, wide) + |r|..], wide)
    ensures r == [] || (!IsSpace(r[0], wide) && !IsSpace(r[|r| - 1], wide))
  {
    hide IsSpace;
    var n := LeadingSpaces(s, wide);
    if n == |s| then
      assert s[n..] == [];
      []
    else
      var m := TrailingSpaces(s, wide);
      forall j | |s| - m <= j < |s| ensures IsSpace(s[j], wide) {
        assert s[|s| - m..][j - (|s| - m)] == s[j];
      }
      assert m < |s| - n;
      assert s == s[..n] + s[n..|s| - m] + s[|s| - m..];
      s[n..|s| - m]
  }

  predicate IsAscii(s: string) {
    forall i :: 0 <= i < |s| ==> s[i] < '\U{80}'
  }

  /**
   * `text.strip()` on an element text as lxml returns it under Python 2:
   * a `str` when every character is ASCII, a `unicode` otherwise.
   */
  function TextStrip(s: string): string {
    Strip(s, !IsAscii(s))
  }

  /** A non-ASCII text is stripped of a no-break space; an ASCII text keeps a leading U+001C. */
  lemma TextStripExamples()
    ensures TextStrip("\U{A0}x") == "x"
    ensures TextStrip("\U{1C}x") == "\U{1C}x"
  {
    var a: string := "\U{A0}x";
    assert a[0] == '\U{A0}' && a[1..] == "x";
    assert !IsAscii(a);
    assert LeadingSpaces("x", true) == 0;
    assert LeadingSpaces(a, true) == 1;
    assert TrailingSpaces("x", true) == 0;
    var b: string := "\U{1C}x";
    assert IsAscii(b);
    assert LeadingSpaces(b, false) == 0;
    assert TrailingSpaces(b, false) == 0;
  }

  /** Position of the first occurrence of `d` in `s`. */
  function IndexOf(s: string, d: char): (i: nat)
    requires d in s
    ensures i < |s| && s[i] == d && d !in s[..i]
  {
    if s[0] == d then 0 else 1 + IndexOf(s[1..], d)
  }

  /** `d.join(parts)` for a single-character separator. */
  function Join(parts: seq<string>, d: char): (s: string)
    requires |parts| >= 1
    ensures |parts| >= 2 ==> d in s
  {
    if |parts| == 1 then parts[0]
    else
      var rest := Join(parts[1..], d);
      assert (parts[0] + [d] + rest)[|parts[0]|] == d;
      parts[0] + [d] + rest
  }

  /**
   * `s.split(d)`: the pieces between occurrences of `d`, empty pieces
   * included, so that joining them back gives `s`.
   */
  function Split(s: string, d: char): (parts: seq<string>)
    ensures |parts| >= 1
    ensures forall i :: 0 <= i < |parts| ==> d !in parts[i]
    ensures Join(parts, d) == s
    ensures d in s <==> |parts| >= 2
    decreases |s|
  {
    if d !in s then [s]
    else
      var i := IndexOf(s, d);
      var rest := Split(s[i + 1..], d);
      assert s == s[..i] + [d] + s[i + 1..];
      [s[..i]] + rest
  }

  /** Splitting a join of separator-free pieces gives the pieces back. */
  lemma {:induction false} SplitJoin(parts: seq<string>, d: char)
    requires |parts| >= 1
    requires forall i :: 0 <= i < |parts| ==> d !in parts[i]
    ensures Split(Join(parts, d), d) == parts
    decreases |parts|
  {
    if |parts| >= 2 {
      var s := Join(parts, d);
      var rest := Join(parts[1..], d);
      assert s == parts[0] + [d] + rest;
      FirstIndexAfterFreePrefix(parts[0], rest, d);
      assert s[..|parts[0]|] == parts[0];
      assert s[|parts[0]| + 1..] == rest;
      SplitJoin(parts[1..], d);
      assert parts == [parts[0]] + parts[1..];
    }
  }

  lemma {:induction false} FirstIndexAfterFreePrefix(p: string, rest: string, d: char)
    requires d !in p
    ensures IndexOf(p + [d] + rest, d) == |p|
    decreases |p|
  {
    if |p| > 0 {
      assert (p + [d] + rest)[1..] == p[1..] + [d] + rest;
      FirstIndexAfterFreePrefix(p[1..], rest, d);
    }
  }

  function DigitChar(n: nat): char
    requires n < 10
  {
    "0123456789"[n]
  }

  /** `str(n)` for a natural number: its decimal digits. */
  function ShowNat(n: nat): string
    decreases n
  {
    if n < 10 then [DigitChar(n)] else ShowNat(n / 10) + [DigitChar(n % 10)]
  }

  /** `str(i)` for an integer. */
  function ShowInt(i: int): string {
    if i < 0 then "-" + ShowNat(-i) else ShowNat(i)
  }
}

=== FILE: wrappers.dfy ===
/** Failure-carrying datatypes used across the model. */
module Wrappers {

  /** A value that may be missing: Python's `None` or a Redis nil reply. */
  datatype Option<+T> = None | Some(value: T)

  /** The outcome of an operation that may raise. */
  datatype Result<+T, +E> = Success(value: T) | Failure(error: E)
}
